=== FILE: README.md ===
# Chunked BLE transfer: a Dafny model

This project models the in-band chunked transfer protocol of the CoreBluetooth LE
sample app. It has two roles, each an event-driven state machine.

- **Peripheral (sender).** The peripheral view controller keeps an outbound payload
  (`dataToSend`), a cursor (`sendDataIndex`), the class-wide `sendingEOM` flag and the
  subscribed central with its MTU.
  - `sendData` cuts the payload into chunks of `min(remaining, mtu)` bytes and writes
    them to the transfer characteristic until the transport refuses one.
  - Once the whole payload has gone out, it writes the three bytes `EOM` as a packet of
    their own.
  - A refused write ends the call. The next `peripheralManagerIsReady` callback resumes
    from the cursor, or retries the pending sentinel.
- **Central (receiver and connection lifecycle).** The central view controller appends
  every notified value that decodes as UTF-8, other than the sentinel, to its buffer.
  - A value that decodes to `EOM` is not appended. It triggers the reply write loop
    (`writeData`) and hands the buffer to the view.
  - A discovered peripheral is connected to only if its RSSI is at least -50 dBm and it
    is not already the current target. `retrievePeripheral` connects to an
    already-connected peripheral without any signal check.
  - It counts connections. After a disconnection it retrieves again only while fewer
    than five connections have been made; a power-on retrieves whatever the counter
    says.
  - `cleanup` turns notifications off and cancels the connection, and does so only when
    a target is connected.

Files:

- `ble.dfy`: shared definitions. It holds bytes, the sentinel, manager states, the
  abstract UTF-8 decoder and the transport's answer scripts.
- `transfer_service.dfy`: the service and characteristic UUIDs.
- `peripheral.dfy`: the sender.
- `central.dfy`: the receiver and the connection lifecycle.
- `roundtrip.dfy`: the two roles composed.
- `scenarios.dfy`: concrete transfers.

Modelling choices:

- **State and callbacks.** Both roles are immutable records. Each delegate callback is
  a pure function. It returns the new record, and the writes or stack calls it made
  (`Attempt`s on the peripheral side, `Command`s on the central side).
- **The transport.** It is an answer script (`seq<bool>`). The `i`-th write of a
  callback is accepted, or the `i`-th readiness query is answered yes, exactly when
  `Answer(script, i)` holds. A script that has run out reads as "not ready".
- **Stack-owned state.** This is what the Bluetooth stack owns on the central side: the
  target's link state and services, the already-connected peripherals, and
  `canSendWriteWithoutResponse`. Each callback receives it as a `Platform` value.
- **Readiness.** The sender's `peripheralManagerIsReady` callback is an input that may
  arrive at any time (`PeripheralSide.Drive`, `PeripheralSide.Run`). The stack's own
  rule, that readiness follows only a refused `updateValue`, is not imposed, and no
  liveness is claimed.
- **UUIDs and options.** The central's retrieval, scan and service-discovery commands
  carry the transfer service UUID of `transfer_service.dfy`. Characteristic discovery
  carries the transfer characteristic UUID as its filter. The scan carries the
  allow-duplicates option, which is why a peripheral already chosen can be discovered
  again (`CentralSide.RediscoveryIsNoOp`).
- **Decoding.** UTF-8 decoding is a function parameter (`Decoder`). A lemma that needs
  a fact about it states that fact as a precondition.

- **Characteristics.** A `Characteristic` carries a numeric `id` besides its UUID and
  notification state, so that two characteristics with the same UUID are told apart,
  as object identity does on the platform.

Behaviours of the code that one might not expect, modelled as written:

- **Subscription keeps the sentinel flag.** One might expect a new transfer to clear
  the sentinel-pending flag. `didSubscribeTo` resets only the payload, the cursor and
  the central, and leaves the static `sendingEOM` as it was. A sentinel still pending
  from an earlier transfer is therefore the only value that the subscription's own
  `sendData` call sends (`RoundTrip.StaleSentinelFirst`). A flag still set means the
  last sentinel write was refused, so a readiness callback is still owed for it.
  - If the stale sentinel is accepted at subscription, the call ends with the flag
    clear and nothing of the new payload sent. The owed readiness callback then sends
    the whole new payload and its own sentinel
    (`RoundTrip.AcceptedStaleSentinelThenPayload`). The central sees two sentinels,
    the first of them ahead of any payload byte.
  - If the stale sentinel is refused, the flag stays set while the cursor is back at
    the start. Two readiness callbacks with the transport ready, one for each refusal,
    then deliver the stale sentinel, the whole new payload and a second sentinel
    (`RoundTrip.RefusedStaleSentinelRepeats`). The one-sentinel bound of
    `PeripheralSide.DriveSentinel` therefore holds only from a state whose flag agrees
    with its cursor.
- **The central keeps its buffer after the sentinel.** One might expect the receive
  buffer to be cleared after the hand-off. `didUpdateValueFor` does not clear it; only
  `didConnect` and `viewWillDisappear` (not modelled) do.
- **Unsubscribing does not reset the sender.** One might expect it to, so that a late
  readiness callback does nothing. `didUnsubscribeFrom` only forgets the central. With
  no MTU left to respect, the next `sendData` writes the whole remainder in one chunk
  (`PeripheralSide.UnsubscribedSendsRemainder`).

## Model

| member | source | states |
|---|---|---|
| `PeripheralSide.ChunkSize` | CoreBluetoothLESample/PeripheralViewController.swift:86-90 | a chunk is never empty and never longer than what is left; it is all that is left without a central, and otherwise the smaller of the remainder and the MTU |
| `PeripheralSide.FragmentReassembles` | CoreBluetoothLESample/PeripheralViewController.swift:84-117 | concatenating the reference chunks from a cursor gives back exactly the payload from that cursor on |
| `PeripheralSide.FragmentSizes` | CoreBluetoothLESample/PeripheralViewController.swift:86-92 | every reference chunk holds at least one byte and at most the subscriber's MTU |
| `PeripheralSide.SendLoop` | CoreBluetoothLESample/PeripheralViewController.swift:83-117 | the `while didSend` loop terminates, never changes the payload, central or characteristic, and leaves the cursor between its start and the payload's end |
| `PeripheralSide.SendLoopAnswered` | CoreBluetoothLESample/PeripheralViewController.swift:94-98 | each write of the loop is decided by the transport's next answer, in order, and exactly the answers asked for are used up |
| `PeripheralSide.SendLoopFragments` | CoreBluetoothLESample/PeripheralViewController.swift:92-116 | the accepted chunks are the reference chunks up to the new cursor. Only the last write can be refused or be the sentinel. A refusal is of the very next chunk, with the flag clear. At the end the sentinel is tried, and the flag stays set exactly when it was refused |
| `PeripheralSide.SendLoopPrefix` | CoreBluetoothLESample/PeripheralViewController.swift:92-103 | the chunks the loop gets accepted are the reference chunks, in order, from the old cursor up to the new one |
| `PeripheralSide.SendLoopStops` | CoreBluetoothLESample/PeripheralViewController.swift:94-98 | every write of the loop but the last is an accepted payload chunk |
| `PeripheralSide.SendLoopLast` | CoreBluetoothLESample/PeripheralViewController.swift:96-115 | while bytes remain, the last write is the refused next chunk, and the flag is clear. At the end, the last write is the sentinel, and the flag stays set exactly when it was refused |
| `PeripheralSide.SendLoopSentinel` | CoreBluetoothLESample/PeripheralViewController.swift:104-115 | the loop delivers at most one sentinel, after its chunks, and delivers one exactly when it ends with the cursor at the end and the flag clear |
| `PeripheralSide.SendData` | CoreBluetoothLESample/PeripheralViewController.swift:65-81 | nothing happens without the characteristic. A pending sentinel is the only write, the cursor does not move, and the flag clears iff the write is accepted. Nothing happens once the payload is exhausted. The cursor never moves back or past the end |
| `PeripheralSide.SendDataFlowControl` | CoreBluetoothLESample/PeripheralViewController.swift:65-118 | one call answers its writes from the script in order. Only its last write can stop it. The cursor stays in range, just after the accepted reference chunks. A refused chunk leaves cursor and flag untouched |
| `PeripheralSide.SendDataSentinel` | CoreBluetoothLESample/PeripheralViewController.swift:70-116 | one call delivers at most one sentinel, after every chunk it delivered. It keeps the flag coherent with the cursor, and a delivered sentinel means the payload is done |
| `PeripheralSide.SendDataLoop` | CoreBluetoothLESample/PeripheralViewController.swift:65-118 | the imperative `sendData`, guards and loop as written, computes the same outcome as the functional model |
| `PeripheralSide.SendChunks` | CoreBluetoothLESample/PeripheralViewController.swift:83-117 | the imperative `while didSend` loop over a mutable cursor computes the same outcome as the recursive loop |
| `PeripheralSide.Drive` | CoreBluetoothLESample/PeripheralViewController.swift:206-208 | repeated readiness callbacks never change the payload, the central or the characteristic, and the cursor only moves forward and never past the end |
| `PeripheralSide.DriveIdle` | CoreBluetoothLESample/PeripheralViewController.swift:206-208 | once the payload is done and no sentinel is pending, readiness callbacks send nothing and change nothing |
| `PeripheralSide.DriveFragments` | CoreBluetoothLESample/PeripheralViewController.swift:206-208 | over any run of readiness callbacks the cursor only advances and stays in range, and the accepted chunks are the reference chunks, in order, up to it |
| `PeripheralSide.DriveSentinel` | CoreBluetoothLESample/PeripheralViewController.swift:206-208 | over any run of readiness callbacks from a coherent state, at most one sentinel is accepted, after all accepted chunks; once it is, the payload is done and the flag is clear |
| `PeripheralSide.FragmentPrefixBytes` | CoreBluetoothLESample/PeripheralViewController.swift:92-103 | chunks that precede the reference chunks from one position carry exactly the payload bytes between the two positions |
| `PeripheralSide.CursorCountsAcceptedBytes` | CoreBluetoothLESample/PeripheralViewController.swift:92-103 | the bytes between the old and the new cursor are exactly the accepted chunks of one call, concatenated |
| `PeripheralSide.DriveAcceptedBytes` | CoreBluetoothLESample/PeripheralViewController.swift:92-103 | from the start of a payload, the accepted chunks of any run of readiness callbacks concatenate to the payload before the cursor |
| `PeripheralSide.SendDataCompletes` | CoreBluetoothLESample/PeripheralViewController.swift:83-117 | when every write is accepted, one call delivers the remaining reference chunks followed by the sentinel, and completes the transfer |
| `PeripheralSide.OnStateUpdate` | CoreBluetoothLESample/PeripheralViewController.swift:139-177 | only a powered-on manager sets up the characteristic; every other state has no effect |
| `PeripheralSide.OnSubscribe` | CoreBluetoothLESample/PeripheralViewController.swift:187-197 | the new payload and central are recorded with the cursor at the start, and `sendData` runs on that state, so its outcome is exactly one send. The cursor ends in range after the accepted reference chunks. A stale pending sentinel is the only write, ahead of any payload byte |
| `PeripheralSide.OnUnsubscribe` | CoreBluetoothLESample/PeripheralViewController.swift:200-203 | only the recorded central is forgotten |
| `PeripheralSide.UnsubscribedSendsRemainder` | CoreBluetoothLESample/PeripheralViewController.swift:86-90 | after an unsubscribe, an accepted write carries the whole remainder of the payload, and the sentinel follows in the same call |
| `PeripheralSide.RunKeepsCursorInRange` | CoreBluetoothLESample/PeripheralViewController.swift:138-208 | under any sequence of peripheral callbacks (`PeripheralSide.Step` dispatches a state update, a subscription, an unsubscription or a readiness callback, and `PeripheralSide.Run` folds it), the cursor never passes the end of the current payload |
| `CentralSide.NotifyOff` | CoreBluetoothLESample/CentralViewController.swift:63-67 | the commands turn notifications off on exactly the notifying transfer characteristics of the list, once each and in list order (the filter of the list); every command names a notifying transfer characteristic of the list, and every such characteristic gets one |
| `CentralSide.ServicesNotifyOff` | CoreBluetoothLESample/CentralViewController.swift:62-68 | the commands turn notifications off on exactly the notifying transfer characteristics of all the services, once each, service by service and in order; every command names a characteristic of one of the services |
| `CentralSide.Cleanup` | CoreBluetoothLESample/CentralViewController.swift:59-70 | nothing happens without a connected target. Otherwise the commands are one notify-off for each notifying transfer characteristic of the target's services, in order and for no other characteristic, followed by the cancellation of the connection. It never retrieves or scans |
| `CentralSide.CleanupNothingNotifying` | CoreBluetoothLESample/CentralViewController.swift:59-70 | with no notifying transfer characteristic on a connected target, cleanup only cancels the connection |
| `CentralSide.WriteLoop` | CoreBluetoothLESample/CentralViewController.swift:77-93 | one write per counted iteration. Every counted iteration had a ready link. The loop stops at five, or at the first answer that the link is not ready |
| `CentralSide.WriteData` | CoreBluetoothLESample/CentralViewController.swift:72-98 | nothing happens without a target and a characteristic. The counter grows by the number of writes and never passes five from at most five. It stops only at five or at a not-ready link. Notifications go off exactly when the counter ends at five |
| `CentralSide.RetrievePeripheral` | CoreBluetoothLESample/CentralViewController.swift:44-58 | the most recently listed connected peripheral becomes the target and is connected to; with none, the central scans |
| `CentralSide.OnStateUpdate` | CoreBluetoothLESample/CentralViewController.swift:104-142 | only a powered-on manager retrieves or scans; every other state has no effect |
| `CentralSide.OnDiscover` | CoreBluetoothLESample/CentralViewController.swift:143-158 | below -50 dBm, or for the current target, nothing happens. Otherwise the peripheral becomes the target and is connected to |
| `CentralSide.RediscoveryIsNoOp` | CoreBluetoothLESample/CentralViewController.swift:145-157 | once a discovery at or above -50 dBm has chosen a peripheral, discovering that same peripheral again, at any signal strength, changes nothing and connects nothing |
| `CentralSide.OnFailToConnect` | CoreBluetoothLESample/CentralViewController.swift:159-162 | a failed connection changes no state, runs `cleanup`, and never retries; it tears down only a connected target |
| `CentralSide.OnConnect` | CoreBluetoothLESample/CentralViewController.swift:164-177 | the connection counter grows by exactly one, the reply counter and buffer are reset, the target is kept, and scanning stops before service discovery starts |
| `CentralSide.OnDisconnect` | CoreBluetoothLESample/CentralViewController.swift:180-189 | the target is forgotten, and a retrieval follows exactly when fewer than five connections have been made |
| `CentralSide.OnServicesDiscovered` | CoreBluetoothLESample/CentralViewController.swift:203-215 | an error tears down. Otherwise characteristic discovery starts on every service found, in order, and the state never changes |
| `CentralSide.EnableNotify` | CoreBluetoothLESample/CentralViewController.swift:225-228 | notifications go on for exactly the transfer characteristics of the list, once each and in list order, and for no characteristic outside it. The recorded characteristic becomes the last transfer characteristic of the list, and stays as it was when the list has none. Nothing else changes |
| `CentralSide.OnCharacteristicsDiscovered` | CoreBluetoothLESample/CentralViewController.swift:217-230 | an error tears down; otherwise the transfer characteristics of the service are subscribed to |
| `CentralSide.OnValueUpdated` | CoreBluetoothLESample/CentralViewController.swift:232-255 | an error tears down, and an absent or undecodable value is dropped. The sentinel leaves the buffer as it is, runs the reply loop, then hands the buffer off. Anything else is appended at the end |
| `CentralSide.OnNotificationStateUpdated` | CoreBluetoothLESample/CentralViewController.swift:257-271 | only the transfer characteristic stopping, without error, tears down; nothing changes the central's state |
| `CentralSide.Step` | CoreBluetoothLESample/CentralViewController.swift:104-276 | `Step` hands every delegate callback, `peripheralIsReady(toSendWriteWithoutResponse:)` included, to its handler. In any callback, only a connection moves the connection counter, by one. The reply counter never passes five. A retrieval follows only a power-on, or a disconnect before the fifth connection, and a scan only a retrieval |
| `CentralSide.RunCountsConnections` | CoreBluetoothLESample/CentralViewController.swift:169 | over any sequence of callbacks, the connection counter grows by exactly the number of connections |
| `CentralSide.NoRetrievalAfterLastConnection` | CoreBluetoothLESample/CentralViewController.swift:182-188 | after the fifth connection, only a power-on makes the central retrieve or scan again |
| `CentralSide.RunBoundsWrites` | CoreBluetoothLESample/CentralViewController.swift:77 | over any sequence of callbacks, a reply counter of at most five stays at most five |
| `CentralSide.ReceiveFragments` | CoreBluetoothLESample/CentralViewController.swift:252-254 | decodable non-sentinel values are appended in arrival order, and nothing else happens |
| `CentralSide.SentinelReceived` | CoreBluetoothLESample/CentralViewController.swift:244-251 | a notified sentinel runs the reply loop and then hands the unchanged buffer off; the reply loop itself hands nothing off |
| `CentralSide.ReceiveMessage` | CoreBluetoothLESample/CentralViewController.swift:244-254 | after such values and then the sentinel, the buffer holds their concatenation. The last act is to hand exactly that off, and nothing is handed off before |
| `RoundTrip.DriveDelivers` | CoreBluetoothLESample/PeripheralViewController.swift:84-115 | what a run of sends delivers is its accepted chunks, each decodable and carrying the payload before the cursor. The sentinel follows exactly when one was accepted, and then the cursor is at the end |
| `RoundTrip.TransferDelivers` | CoreBluetoothLESample/PeripheralViewController.swift:84-115 | a freshly connected central is fed everything a run of sends delivered. Once the sentinel is accepted, it hands off exactly the payload, once and last. Before that its buffer is the payload before the sender's cursor |
| `RoundTrip.RefusedStaleSentinelRepeats` | CoreBluetoothLESample/PeripheralViewController.swift:187-197 | when the stale sentinel is refused at subscription, the sender's flag disagrees with its cursor, and two ready readiness callbacks deliver a sentinel, the whole payload, and a second sentinel |
| `RoundTrip.AcceptedStaleSentinelThenPayload` | CoreBluetoothLESample/PeripheralViewController.swift:65-117 | after a stale sentinel is accepted at subscription, the sender's flag agrees with its cursor at the start, and one ready `sendData` delivers the whole new payload's reference chunks and then a sentinel, completing the transfer |
| `RoundTrip.StaleSentinelFirst` | CoreBluetoothLESample/PeripheralViewController.swift:187-197 | a pending sentinel survives a new subscription. It is the only value of the subscription's `sendData` call, and a freshly connected central hands off an empty message |
| `Scenarios.TenBytesFragments` | CoreBluetoothLESample/PeripheralViewController.swift:86-92 | ten bytes at MTU four are cut into four, four and two bytes |
| `Scenarios.TenBytesInOneCall` | CoreBluetoothLESample/PeripheralViewController.swift:83-117 | with every write accepted, one call delivers the three chunks and then the sentinel |
| `Scenarios.TenBytesWithRefusal` | CoreBluetoothLESample/PeripheralViewController.swift:94-98 | a refused second chunk leaves the cursor after the first. The readiness callback resends it and finishes with the sentinel |

## Left out

- Image handling is not modelled: base64, PNG and JPEG encoding and decoding, `UIImage`
  display. The payload is an arbitrary byte sequence. UTF-8 decoding is the abstract
  `Decoder`.
- `CentralSide.OnValueUpdated`: the main-queue block that shows the received image is a
  `HandOff` command. It is placed after the reply loop's commands, because the block
  runs only after the callback returns. Its timing and its UI effect are not modelled.
- `CentralSide.WriteData`: the byte content of the reply packets is not modelled. The
  source copies into an empty array through an unsafe pointer. Only the counter, the
  readiness gate and the number of writes are stated.
- `PeripheralSide.Mtu`: an MTU of at least one byte is assumed, as CoreBluetooth
  guarantees. With zero the source's send loop would write empty chunks forever.
- `setupPeripheral` is reduced to a `hasCharacteristic` flag. Service registration,
  advertising, the advertising switch and the peripheral's `viewWillDisappear` are not
  modelled.
- The central's `viewWillDisappear` is not modelled. It stops scanning and clears the
  receive buffer, and is a view-lifecycle event rather than a transfer callback.
- `PeripheralSide.Drive`, `PeripheralSide.Run`: readiness callbacks are unconstrained
  inputs, not tied to an earlier refused write, and no liveness is claimed; a payload
  may stay unsent forever.
- `didReceiveWrite` only logs. `didModifyServices` rediscovery is stack plumbing.
  Neither is modelled.
- Logging, `print` and the authorization sub-switch of the state callbacks are not
  modelled. They have no effect on state.
- Concurrency is not modelled. Callbacks are taken one at a time, and the static
  `sendingEOM` is one field of the sender record.
- Peripherals are compared by a numeric identity (`PeripheralId`), not by object
  identity.

=== FILE: ble.dfy ===
/** Values shared by both roles of the chunked transfer protocol: bytes, the in-band
    end-of-message sentinel, the states a Bluetooth manager reports, and the answer
    scripts that stand for the transport's accept/reject decisions. */
module Ble {

  newtype byte = b: int | 0 <= b < 0x100

  type Bytes = seq<byte>

  datatype Option<+T> = None | Some(value: T)

  /** The states a CoreBluetooth manager reports to its state-update callback. */
  datatype ManagerState = Unknown | Resetting | Unsupported | Unauthorized | PoweredOff | PoweredOn

  /** The end-of-message marker as text, and as the three UTF-8 bytes `E`, `O`, `M`
      that the peripheral writes as a packet of its own. */
  const Sentinel: string := "EOM"
  const SentinelBytes: Bytes := [0x45, 0x4F, 0x4D]

  /** UTF-8 decoding of a received value: `None` when the bytes are not valid UTF-8.
      The platform decoder is not modelled; a lemma that needs a fact about it says so
      in its requires clause. */
  type Decoder = Bytes -> Option<string>

  /** The concatenation of a sequence of packets, in order. */
  function Flatten(chunks: seq<Bytes>): Bytes
  {
    if |chunks| == 0 then [] else chunks[0] + Flatten(chunks[1..])
  }

  lemma {:induction false} FlattenAppend(a: seq<Bytes>, b: seq<Bytes>)
    ensures Flatten(a + b) == Flatten(a) + Flatten(b)
  {
    if |a| == 0 {
      assert a + b == b;
    } else {
      assert (a + b)[1..] == a[1..] + b;
      FlattenAppend(a[1..], b);
    }
  }

  lemma Associative<T>(a: seq<T>, b: seq<T>, c: seq<T>)
    ensures a + (b + c) == (a + b) + c
  {
  }

  lemma PrefixCompose<T>(a: seq<T>, b: seq<T>, whole: seq<T>, middle: seq<T>, tail: seq<T>)
    requires a + middle == whole && b + tail == middle
    ensures (a + b) + tail == whole
  {
  }

  lemma ConsPrefix<T>(x: T, a: seq<T>, tail: seq<T>, whole: seq<T>)
    requires a + tail == whole
    ensures ([x] + a) + tail == [x] + whole
  {
    assert ([x] + a) + tail == [x] + (a + tail);
  }

  /** The transport's answer to the `i`-th question of one callback: whether a write was
      accepted, or whether the link can take another write. A script that has run out
      answers "no", the transport not being ready. */
  function Answer(script: seq<bool>, i: nat): bool
  {
    i < |script| && script[i]
  }

  /** The script left after `n` questions have been answered. */
  function Skip(script: seq<bool>, n: nat): seq<bool>
  {
    if n <= |script| then script[n..] else []
  }

  lemma SkipAnswer(script: seq<bool>, n: nat, i: nat)
    ensures Answer(Skip(script, n), i) == Answer(script, n + i)
  {
  }

  lemma SkipSkip(script: seq<bool>, n: nat, m: nat)
    ensures Skip(Skip(script, n), m) == Skip(script, n + m)
  {
  }

  /** The elements of `xs` that satisfy `keep`, in their order. */
  function Filter<T>(xs: seq<T>, keep: T -> bool): seq<T>
  {
    if |xs| == 0 then []
    else Filter(xs[..|xs| - 1], keep) + (if keep(xs[|xs| - 1]) then [xs[|xs| - 1]] else [])
  }

  lemma {:induction false} FilterAppend<T>(a: seq<T>, b: seq<T>, keep: T -> bool)
    ensures Filter(a + b, keep) == Filter(a, keep) + Filter(b, keep)
    decreases |b|
  {
    if |b| == 0 {
      assert a + b == a;
    } else {
      assert (a + b)[..|a + b| - 1] == a + b[..|b| - 1];
      assert (a + b)[|a + b| - 1] == b[|b| - 1];
      FilterAppend(a, b[..|b| - 1], keep);
    }
  }

  lemma {:induction false} FilterNone<T>(xs: seq<T>, keep: T -> bool)
    requires forall x :: x in xs ==> !keep(x)
    ensures Filter(xs, keep) == []
    decreases |xs|
  {
    if |xs| > 0 {
      assert xs[|xs| - 1] in xs;
      FilterNone(xs[..|xs| - 1], keep);
    }
  }

  /** An element is kept exactly when it occurs in `xs` and satisfies `keep`. */
  lemma {:induction false} FilterMembers<T>(xs: seq<T>, keep: T -> bool)
    ensures forall x :: x in Filter(xs, keep) <==> x in xs && keep(x)
    decreases |xs|
  {
    if |xs| > 0 {
      FilterMembers(xs[..|xs| - 1], keep);
      assert xs == xs[..|xs| - 1] + [xs[|xs| - 1]];
    }
  }
}

=== FILE: central.dfy ===
/** The central (receiving) role: reassembly of the notified fragments, the reply write
    loop, and the connection lifecycle with its bounded reconnection counter.

    The central's own state is a `Central` record. What the Bluetooth stack owns (the
    target peripheral's link state and services, the list of already-connected
    peripherals, whether another write can be queued) is supplied to each callback as a
    `Platform` value, and the calls the central makes into the stack come out as a
    sequence of `Command`s. */
module CentralSide {
  import opened Ble
  import TransferService

  /** How many connections, and how many reply writes per connection, the central makes. */
  const DefaultIterations: nat := 5

  /** The weakest received signal strength, in dBm, at which a discovery is acted on. */
  const MinimumRssi: int := -50

  type PeripheralId = nat

  datatype LinkState = Disconnected | Connecting | Connected | Disconnecting

  type CharacteristicId = nat

  /** A discovered characteristic. `id` tells apart characteristics that carry the same
      UUID and notification state, as object identity does on the platform. */
  datatype Characteristic = Characteristic(id: CharacteristicId, uuid: string, isNotifying: bool)

  datatype Service = Service(uuid: string, characteristics: Option<seq<Characteristic>>)

  /** The stack's current view of the target peripheral. */
  datatype PeripheralView = PeripheralView(state: LinkState, services: Option<seq<Service>>)

  /** What the stack answers while one callback runs: the target's view, the peripherals
      already connected with the transfer service (most recent last), and the successive
      answers to "can another write without response be queued?". */
  datatype Platform = Platform(
    target: PeripheralView,
    connectedPeripherals: seq<PeripheralId>,
    canSendWrite: seq<bool>)

  datatype Central = Central(
    discoveredPeripheral: Option<PeripheralId>,
    transferCharacteristic: Option<Characteristic>,
    writeIterationsComplete: nat,
    connectionIterationsComplete: nat,
    data: Bytes)

  /** A call from the central into the stack, or the hand-off of a complete message to
      the view. */
  datatype Command =
    | RetrieveConnectedPeripherals(serviceUuid: string)
    | Connect(peripheral: PeripheralId)
    | ScanForPeripherals(serviceUuid: string, allowDuplicates: bool)
    | StopScan
    | DiscoverServices(peripheral: PeripheralId, serviceUuid: string)
    | DiscoverCharacteristics(peripheral: PeripheralId, service: Service, characteristicUuid: string)
    | SetNotifyValue(enabled: bool, characteristic: Characteristic)
    | CancelConnection(peripheral: PeripheralId)
    | WriteWithoutResponse(characteristic: Characteristic)
    | HandOff(message: Bytes)

  /** The central looks up, and scans for, peripherals offering the transfer service only.
      The scan asks for duplicate reports, so a peripheral already seen is discovered
      again with each advertisement. */
  const Retrieve: Command := RetrieveConnectedPeripherals(TransferService.ServiceUuid)
  const Scan: Command := ScanForPeripherals(TransferService.ServiceUuid, true)

  datatype Reaction = Reaction(central: Central, commands: seq<Command>)

  predicate IsTransfer(ch: Characteristic)
  {
    ch.uuid == TransferService.CharacteristicUuid
  }

  predicate NotifyingTransfer(ch: Characteristic)
  {
    IsTransfer(ch) && ch.isNotifying
  }

  /** A command that turns notifications off on a notifying transfer characteristic. */
  predicate IsNotifyOff(cmd: Command)
  {
    cmd.SetNotifyValue? && !cmd.enabled && NotifyingTransfer(cmd.characteristic)
  }

  function CharacteristicsOf(s: Service): seq<Characteristic>
  {
    match s.characteristics
    case None => []
    case Some(cs) => cs
  }

  function ServicesOf(v: PeripheralView): seq<Service>
  {
    match v.services
    case None => []
    case Some(ss) => ss
  }

  // Teardown.

  /** The commands that set the notification state of each of `chs` to `enabled`, in
      order. */
  function SetNotifyAll(enabled: bool, chs: seq<Characteristic>): seq<Command>
  {
    seq(|chs|, i requires 0 <= i < |chs| => SetNotifyValue(enabled, chs[i]))
  }

  lemma SetNotifyAllAppend(enabled: bool, a: seq<Characteristic>, b: seq<Characteristic>)
    ensures SetNotifyAll(enabled, a + b) == SetNotifyAll(enabled, a) + SetNotifyAll(enabled, b)
  {
    assert forall i :: 0 <= i < |a| + |b| ==>
             SetNotifyAll(enabled, a + b)[i] == (SetNotifyAll(enabled, a) + SetNotifyAll(enabled, b))[i];
  }

  /** Setting the state of the kept characteristics of `chars` touches each kept one,
      and only those. */
  lemma SetNotifyKept(enabled: bool, chars: seq<Characteristic>, keep: Characteristic -> bool)
    ensures var cmds := SetNotifyAll(enabled, Filter(chars, keep));
            && (forall k :: 0 <= k < |cmds| ==>
                  && cmds[k].SetNotifyValue? && cmds[k].enabled == enabled
                  && keep(cmds[k].characteristic) && cmds[k].characteristic in chars)
            && (forall ch :: ch in chars && keep(ch) ==> SetNotifyValue(enabled, ch) in cmds)
  {
    var kept := Filter(chars, keep);
    FilterMembers(chars, keep);
    assert forall k :: 0 <= k < |kept| ==> kept[k] in kept;
    forall ch | ch in chars && keep(ch)
      ensures SetNotifyValue(enabled, ch) in SetNotifyAll(enabled, kept)
    {
      var k :| 0 <= k < |kept| && kept[k] == ch;
      assert SetNotifyAll(enabled, kept)[k] == SetNotifyValue(enabled, ch);
    }
  }

  /** Every characteristic of `services`, service by service, in order. */
  function AllCharacteristics(services: seq<Service>): seq<Characteristic>
  {
    if |services| == 0 then [] else CharacteristicsOf(services[0]) + AllCharacteristics(services[1..])
  }

  /** The characteristics `cleanup` turns notifications off for: the notifying transfer
      characteristics of the target's services, in discovery order. */
  function NotifyingTransfers(services: seq<Service>): seq<Characteristic>
  {
    Filter(AllCharacteristics(services), NotifyingTransfer)
  }

  /** The inner loop of `cleanup`: notifications off on every notifying transfer
      characteristic of one service, once each and in order, and on nothing else. The
      loop over `chars` is its run over all but the last element and one more round. */
  function NotifyOff(chars: seq<Characteristic>): (cmds: seq<Command>)
    ensures cmds == SetNotifyAll(false, Filter(chars, NotifyingTransfer))
    ensures forall k :: 0 <= k < |cmds| ==> IsNotifyOff(cmds[k]) && cmds[k].characteristic in chars
    ensures forall ch :: ch in chars && NotifyingTransfer(ch) ==> SetNotifyValue(false, ch) in cmds
    ensures |cmds| <= |chars|
    decreases |chars|
  {
    if |chars| == 0 then []
    else
      var before := chars[..|chars| - 1];
      var ch := chars[|chars| - 1];
      SetNotifyAllAppend(false, Filter(before, NotifyingTransfer), if NotifyingTransfer(ch) then [ch] else []);
      SetNotifyKept(false, chars, NotifyingTransfer);
      NotifyOff(before) + (if NotifyingTransfer(ch) then [SetNotifyValue(false, ch)] else [])
  }

  /** The outer loop of `cleanup`, over the target's services. */
  function ServicesNotifyOff(services: seq<Service>): (cmds: seq<Command>)
    ensures cmds == SetNotifyAll(false, NotifyingTransfers(services))
    ensures forall k :: 0 <= k < |cmds| ==> IsNotifyOff(cmds[k]) && cmds[k].characteristic in AllCharacteristics(services)
    ensures forall i, ch :: 0 <= i < |services| && ch in CharacteristicsOf(services[i]) && NotifyingTransfer(ch) ==>
              SetNotifyValue(false, ch) in cmds
    decreases |services|
  {
    if |services| == 0 then []
    else
      var first := NotifyOff(CharacteristicsOf(services[0]));
      var rest := ServicesNotifyOff(services[1..]);
      assert forall i :: 1 <= i < |services| ==> services[i] == services[1..][i - 1];
      FilterAppend(CharacteristicsOf(services[0]), AllCharacteristics(services[1..]), NotifyingTransfer);
      SetNotifyAllAppend(false, Filter(CharacteristicsOf(services[0]), NotifyingTransfer), NotifyingTransfers(services[1..]));
      SetNotifyKept(false, AllCharacteristics(services), NotifyingTransfer);
      first + rest
  }

  /** `cleanup`: nothing unless there is a target and the stack reports it connected;
      otherwise notifications off on each notifying transfer characteristic, once each
      and in order, and on nothing else, then the connection is cancelled. The
      central's own state never changes. */
  function Cleanup(c: Central, target: PeripheralView): (cmds: seq<Command>)
    ensures Retrieve !in cmds && Scan !in cmds
    ensures c.discoveredPeripheral.None? || target.state != Connected ==> cmds == []
    ensures c.discoveredPeripheral.Some? && target.state == Connected ==>
              && cmds == SetNotifyAll(false, NotifyingTransfers(ServicesOf(target)))
                         + [CancelConnection(c.discoveredPeripheral.value)]
              && (forall k :: 0 <= k < |cmds| - 1 ==>
                    IsNotifyOff(cmds[k]) && cmds[k].characteristic in AllCharacteristics(ServicesOf(target)))
              && (forall i, ch :: 0 <= i < |ServicesOf(target)| && ch in CharacteristicsOf(ServicesOf(target)[i]) && NotifyingTransfer(ch) ==>
                    SetNotifyValue(false, ch) in cmds)
  {
    match c.discoveredPeripheral
    case None => []
    case Some(p) =>
      if target.state != Connected then []
      else ServicesNotifyOff(ServicesOf(target)) + [CancelConnection(p)]
  }

  /** With nothing notifying, `cleanup` of a connected target only cancels the
      connection. */
  lemma CleanupNothingNotifying(c: Central, target: PeripheralView)
    requires c.discoveredPeripheral.Some? && target.state == Connected
    requires forall ch :: ch in AllCharacteristics(ServicesOf(target)) ==> !NotifyingTransfer(ch)
    ensures Cleanup(c, target) == [CancelConnection(c.discoveredPeripheral.value)]
  {
    FilterNone(AllCharacteristics(ServicesOf(target)), NotifyingTransfer);
  }

  // The reply write loop.

  /** The `while` loop of `writeData`: one write per round while fewer than
      `DefaultIterations` writes are complete and the stack can queue another. */
  function WriteLoop(count: nat, ready: seq<bool>, ch: Characteristic): (r: (nat, seq<Command>))
    ensures count <= r.0
    ensures count <= DefaultIterations ==> r.0 <= DefaultIterations
    ensures |r.1| == r.0 - count && forall k :: 0 <= k < |r.1| ==> r.1[k] == WriteWithoutResponse(ch)
    ensures forall i :: 0 <= i < r.0 - count ==> Answer(ready, i)
    ensures r.0 < DefaultIterations ==> !Answer(ready, r.0 - count)
    decreases DefaultIterations - count
  {
    if count < DefaultIterations && Answer(ready, 0) then
      var r := WriteLoop(count + 1, Skip(ready, 1), ch);
      assert forall i :: 1 <= i < r.0 - count ==> Answer(ready, i) by {
        forall i | 1 <= i < r.0 - count {
          SkipAnswer(ready, 1, i - 1);
        }
      }
      SkipAnswer(ready, 1, r.0 - count - 1);
      (r.0, [WriteWithoutResponse(ch)] + r.1)
    else
      (count, [])
  }

  /** `writeData`: nothing without a target and a transfer characteristic; otherwise the
      write loop, each write counted once, and notifications off exactly when the
      counter stands at `DefaultIterations` afterwards. */
  function WriteData(c: Central, ready: seq<bool>): (r: Reaction)
    ensures r.central.(writeIterationsComplete := c.writeIterationsComplete) == c
    ensures c.discoveredPeripheral.None? || c.transferCharacteristic.None? ==> r == Reaction(c, [])
    ensures c.writeIterationsComplete <= r.central.writeIterationsComplete
    ensures c.writeIterationsComplete <= DefaultIterations ==> r.central.writeIterationsComplete <= DefaultIterations
    ensures c.discoveredPeripheral.Some? && c.transferCharacteristic.Some? ==>
              var ch := c.transferCharacteristic.value;
              var writes := r.central.writeIterationsComplete - c.writeIterationsComplete;
              && |r.commands| == writes + (if r.central.writeIterationsComplete == DefaultIterations then 1 else 0)
              && (forall k :: 0 <= k < writes ==> r.commands[k] == WriteWithoutResponse(ch))
              && (r.central.writeIterationsComplete == DefaultIterations ==>
                    r.commands[|r.commands| - 1] == SetNotifyValue(false, ch))
              && (forall i :: 0 <= i < writes ==> Answer(ready, i))
              && (r.central.writeIterationsComplete < DefaultIterations ==> !Answer(ready, writes))
  {
    if c.discoveredPeripheral.None? || c.transferCharacteristic.None? then
      Reaction(c, [])
    else
      var ch := c.transferCharacteristic.value;
      var (count, writes) := WriteLoop(c.writeIterationsComplete, ready, ch);
      var stop := if count == DefaultIterations then [SetNotifyValue(false, ch)] else [];
      Reaction(c.(writeIterationsComplete := count), writes + stop)
  }

  // Connection lifecycle.

  /** `retrievePeripheral`: target the most recently listed peripheral that is already
      connected with the transfer service and connect to it; with none, scan. */
  function RetrievePeripheral(c: Central, connected: seq<PeripheralId>): (r: Reaction)
    ensures |r.commands| == 2 && r.commands[0] == Retrieve
    ensures |connected| > 0 ==>
              && r.central == c.(discoveredPeripheral := Some(connected[|connected| - 1]))
              && r.commands[1] == Connect(connected[|connected| - 1])
    ensures |connected| == 0 ==> r.central == c && r.commands[1] == Scan
  {
    if |connected| > 0 then
      var last := connected[|connected| - 1];
      Reaction(c.(discoveredPeripheral := Some(last)), [Retrieve, Connect(last)])
    else
      Reaction(c, [Retrieve, Scan])
  }

  /** Only a powered-on manager does anything: it retrieves or scans for the peripheral. */
  function OnStateUpdate(c: Central, state: ManagerState, p: Platform): (r: Reaction)
    ensures state != PoweredOn ==> r == Reaction(c, [])
    ensures state == PoweredOn ==> r == RetrievePeripheral(c, p.connectedPeripherals)
  {
    match state
    case PoweredOn => RetrievePeripheral(c, p.connectedPeripherals)
    case _ => Reaction(c, [])
  }

  /** A discovery below the signal threshold is ignored; so is the current target.
      Anything else becomes the target and is connected to. */
  function OnDiscover(c: Central, peripheral: PeripheralId, rssi: int): (r: Reaction)
    ensures rssi < MinimumRssi ==> r == Reaction(c, [])
    ensures c.discoveredPeripheral == Some(peripheral) ==> r == Reaction(c, [])
    ensures rssi >= MinimumRssi && c.discoveredPeripheral != Some(peripheral) ==>
              && r.central == c.(discoveredPeripheral := Some(peripheral))
              && r.commands == [Connect(peripheral)]
  {
    if rssi < MinimumRssi then Reaction(c, [])
    else if c.discoveredPeripheral != Some(peripheral) then
      Reaction(c.(discoveredPeripheral := Some(peripheral)), [Connect(peripheral)])
    else Reaction(c, [])
  }

  /** Once a discovery at or above the threshold has chosen a peripheral, discovering that
      same peripheral again, at any signal strength, is a no-op. */
  lemma RediscoveryIsNoOp(c: Central, peripheral: PeripheralId, rssi: int, again: int)
    requires rssi >= MinimumRssi
    ensures var first := OnDiscover(c, peripheral, rssi).central;
            OnDiscover(first, peripheral, again) == Reaction(first, [])
  {
  }

  /** A failed connection attempt runs `cleanup` and does not retry. */
  function OnFailToConnect(c: Central, p: Platform): (r: Reaction)
    ensures r.central == c
    ensures Retrieve !in r.commands
    ensures c.discoveredPeripheral.None? || p.target.state != Connected ==> r.commands == []
    ensures r.commands == Cleanup(c, p.target)
  {
    Reaction(c, Cleanup(c, p.target))
  }

  /** A new connection: one more connection counted, the reply counter and the receive
      buffer reset, scanning stopped, service discovery started. The target is not
      touched. */
  function OnConnect(c: Central, peripheral: PeripheralId): (r: Reaction)
    ensures r.central.connectionIterationsComplete == c.connectionIterationsComplete + 1
    ensures r.central.writeIterationsComplete == 0 && r.central.data == []
    ensures r.central.discoveredPeripheral == c.discoveredPeripheral
    ensures r.central.transferCharacteristic == c.transferCharacteristic
    ensures r.commands == [StopScan, DiscoverServices(peripheral, TransferService.ServiceUuid)]
  {
    Reaction(
      c.(connectionIterationsComplete := c.connectionIterationsComplete + 1,
         writeIterationsComplete := 0,
         data := []),
      [StopScan, DiscoverServices(peripheral, TransferService.ServiceUuid)])
  }

  /** A disconnection forgets the target, and retrieves or scans again only while fewer
      than `DefaultIterations` connections have been made. */
  function OnDisconnect(c: Central, p: Platform): (r: Reaction)
    ensures c.connectionIterationsComplete >= DefaultIterations ==>
              r == Reaction(c.(discoveredPeripheral := None), [])
    ensures c.connectionIterationsComplete < DefaultIterations ==>
              r == RetrievePeripheral(c.(discoveredPeripheral := None), p.connectedPeripherals)
    ensures Retrieve in r.commands <==> c.connectionIterationsComplete < DefaultIterations
  {
    var forgotten := c.(discoveredPeripheral := None);
    if c.connectionIterationsComplete < DefaultIterations then
      RetrievePeripheral(forgotten, p.connectedPeripherals)
    else
      Reaction(forgotten, [])
  }

  /** Service discovery: on error, `cleanup`; otherwise characteristic discovery, for the
      transfer characteristic only, on each service found. */
  function OnServicesDiscovered(c: Central, peripheral: PeripheralId, error: bool, services: Option<seq<Service>>, p: Platform): (r: Reaction)
    ensures r.central == c
    ensures error ==> r.commands == Cleanup(c, p.target)
    ensures !error && services.None? ==> r.commands == []
    ensures !error && services.Some? ==>
              && |r.commands| == |services.value|
              && forall i :: 0 <= i < |services.value| ==> r.commands[i] == DiscoverCharacteristics(peripheral, services.value[i], TransferService.CharacteristicUuid)
  {
    if error then Reaction(c, Cleanup(c, p.target))
    else
      match services
      case None => Reaction(c, [])
      case Some(ss) => Reaction(c, seq(|ss|, i requires 0 <= i < |ss| => DiscoverCharacteristics(peripheral, ss[i], TransferService.CharacteristicUuid)))
  }

  /** The characteristic loop: each transfer characteristic in turn becomes the recorded
      one and gets notifications turned on; the last one found stays recorded. The loop
      over `chars` is its run over all but the last element followed by one more round. */
  function EnableNotify(c: Central, chars: seq<Characteristic>): (r: Reaction)
    ensures r.central.(transferCharacteristic := c.transferCharacteristic) == c
    ensures r.commands == SetNotifyAll(true, Filter(chars, IsTransfer))
    ensures forall k :: 0 <= k < |r.commands| ==>
              && r.commands[k].SetNotifyValue? && r.commands[k].enabled
              && IsTransfer(r.commands[k].characteristic) && r.commands[k].characteristic in chars
    ensures forall ch :: ch in chars && IsTransfer(ch) ==> SetNotifyValue(true, ch) in r.commands
    ensures var found := Filter(chars, IsTransfer);
            r.central.transferCharacteristic == if |found| == 0 then c.transferCharacteristic else Some(found[|found| - 1])
    ensures (forall ch :: ch in chars ==> !IsTransfer(ch)) ==> r == Reaction(c, [])
    decreases |chars|
  {
    if |chars| == 0 then Reaction(c, [])
    else
      var before := chars[..|chars| - 1];
      var ch := chars[|chars| - 1];
      var r := EnableNotify(c, before);
      SetNotifyAllAppend(true, Filter(before, IsTransfer), if IsTransfer(ch) then [ch] else []);
      SetNotifyKept(true, chars, IsTransfer);
      if IsTransfer(ch) then
        Reaction(r.central.(transferCharacteristic := Some(ch)), r.commands + [SetNotifyValue(true, ch)])
      else
        r
  }

  /** Characteristic discovery: on error, `cleanup`; otherwise the characteristic loop. */
  function OnCharacteristicsDiscovered(c: Central, error: bool, service: Service, p: Platform): (r: Reaction)
    ensures error ==> r == Reaction(c, Cleanup(c, p.target))
    ensures !error ==> r == EnableNotify(c, CharacteristicsOf(service))
  {
    if error then Reaction(c, Cleanup(c, p.target))
    else EnableNotify(c, CharacteristicsOf(service))
  }

  /** A notified value. An error runs `cleanup`; a missing or undecodable value is
      dropped; a value that decodes to the sentinel leaves the buffer as it is, runs
      `writeData`, and hands the buffer to the view; any other value is appended to the
      end of the buffer. */
  function OnValueUpdated(c: Central, error: bool, value: Option<Bytes>, p: Platform, decode: Decoder): (r: Reaction)
    ensures error ==> r == Reaction(c, Cleanup(c, p.target))
    ensures !error && (value.None? || decode(value.value).None?) ==> r == Reaction(c, [])
    ensures !error && value.Some? && decode(value.value) == Some(Sentinel) ==>
              var w := WriteData(c, p.canSendWrite);
              && r.central == w.central
              && r.central.data == c.data
              && r.commands == w.commands + [HandOff(c.data)]
    ensures !error && value.Some? && decode(value.value).Some? && decode(value.value) != Some(Sentinel) ==>
              r == Reaction(c.(data := c.data + value.value), [])
  {
    if error then Reaction(c, Cleanup(c, p.target))
    else
      match value
      case None => Reaction(c, [])
      case Some(bytes) =>
        match decode(bytes)
        case None => Reaction(c, [])
        case Some(text) =>
          if text == Sentinel then
            var w := WriteData(c, p.canSendWrite);
            Reaction(w.central, w.commands + [HandOff(c.data)])
          else
            Reaction(c.(data := c.data + bytes), [])
  }

  /** A change of notification state: only the transfer characteristic stopping, without
      error, matters, and it runs `cleanup`. */
  function OnNotificationStateUpdated(c: Central, error: bool, ch: Characteristic, p: Platform): (r: Reaction)
    ensures r.central == c
    ensures error || !IsTransfer(ch) || ch.isNotifying ==> r.commands == []
    ensures !error && IsTransfer(ch) && !ch.isNotifying ==> r.commands == Cleanup(c, p.target)
  {
    if error || !IsTransfer(ch) || ch.isNotifying then Reaction(c, [])
    else Reaction(c, Cleanup(c, p.target))
  }

  // Dispatch.

  datatype CentralEvent =
    | StateUpdated(state: ManagerState)
    | Discovered(peripheral: PeripheralId, rssi: int)
    | FailedToConnect(peripheral: PeripheralId)
    | DidConnect(peripheral: PeripheralId)
    | DidDisconnect(peripheral: PeripheralId)
    | ServicesDiscovered(peripheral: PeripheralId, error: bool, services: Option<seq<Service>>)
    | CharacteristicsDiscovered(peripheral: PeripheralId, error: bool, service: Service)
    | ValueUpdated(error: bool, value: Option<Bytes>)
    | NotificationStateUpdated(error: bool, characteristic: Characteristic)
    | ReadyToSendWrite

  datatype Input = Input(event: CentralEvent, platform: Platform)

  /** One callback. Across all callbacks: only a connection moves the connection counter,
      by one; the reply counter never passes `DefaultIterations`; and only a powered-on
      manager, or a disconnection before the last connection, retrieves again. */
  function Step(c: Central, input: Input, decode: Decoder): (r: Reaction)
    ensures r.central.connectionIterationsComplete
            == c.connectionIterationsComplete + (if input.event.DidConnect? then 1 else 0)
    ensures c.writeIterationsComplete <= DefaultIterations ==> r.central.writeIterationsComplete <= DefaultIterations
    ensures Retrieve in r.commands ==>
              || input.event == StateUpdated(PoweredOn)
              || (input.event.DidDisconnect? && c.connectionIterationsComplete < DefaultIterations)
    ensures Scan in r.commands ==> Retrieve in r.commands
  {
    var p := input.platform;
    match input.event
    case StateUpdated(state) => OnStateUpdate(c, state, p)
    case Discovered(peripheral, rssi) => OnDiscover(c, peripheral, rssi)
    case FailedToConnect(_) => OnFailToConnect(c, p)
    case DidConnect(peripheral) => OnConnect(c, peripheral)
    case DidDisconnect(_) => OnDisconnect(c, p)
    case ServicesDiscovered(peripheral, error, services) => OnServicesDiscovered(c, peripheral, error, services, p)
    case CharacteristicsDiscovered(_, error, service) => OnCharacteristicsDiscovered(c, error, service, p)
    case ValueUpdated(error, value) => OnValueUpdated(c, error, value, p, decode)
    case NotificationStateUpdated(error, ch) => OnNotificationStateUpdated(c, error, ch, p)
    case ReadyToSendWrite => WriteData(c, p.canSendWrite)
  }

  /** A sequence of callbacks, each handled by `step`; the commands of each follow those
      of the one before. */
  function Fold(step: (Central, Input) -> Reaction, c: Central, inputs: seq<Input>): Reaction
    decreases |inputs|
  {
    if |inputs| == 0 then Reaction(c, [])
    else
      var first := step(c, inputs[0]);
      var rest := Fold(step, first.central, inputs[1..]);
      Reaction(rest.central, first.commands + rest.commands)
  }

  /** A sequence of callbacks of this controller. */
  function Run(c: Central, inputs: seq<Input>, decode: Decoder): Reaction
  {
    Fold((x, input) => Step(x, input, decode), c, inputs)
  }

  /** Folding over two stretches of callbacks is folding over the second from where the
      first ended. */
  lemma {:induction false} FoldAppend(step: (Central, Input) -> Reaction, c: Central, a: seq<Input>, b: seq<Input>)
    ensures var first := Fold(step, c, a);
            var second := Fold(step, first.central, b);
            Fold(step, c, a + b) == Reaction(second.central, first.commands + second.commands)
    decreases |a|
  {
    if |a| == 0 {
      assert a + b == b;
    } else {
      assert (a + b)[0] == a[0];
      assert (a + b)[1..] == a[1..] + b;
      FoldAppend(step, step(c, a[0]).central, a[1..], b);
    }
  }

  lemma RunAppend(c: Central, a: seq<Input>, b: seq<Input>, decode: Decoder)
    ensures var first := Run(c, a, decode);
            var second := Run(first.central, b, decode);
            Run(c, a + b, decode) == Reaction(second.central, first.commands + second.commands)
  {
    FoldAppend((x, input) => Step(x, input, decode), c, a, b);
  }

  function Connections(inputs: seq<Input>): nat
  {
    if |inputs| == 0 then 0
    else (if inputs[0].event.DidConnect? then 1 else 0) + Connections(inputs[1..])
  }

  /** The connection counter counts connections, exactly. */
  lemma {:induction false} RunCountsConnections(c: Central, inputs: seq<Input>, decode: Decoder)
    ensures Run(c, inputs, decode).central.connectionIterationsComplete
            == c.connectionIterationsComplete + Connections(inputs)
    decreases |inputs|
  {
    if |inputs| > 0 {
      RunCountsConnections(Step(c, inputs[0], decode).central, inputs[1..], decode);
    }
  }

  /** Once `DefaultIterations` connections have been made, nothing but a powered-on
      manager makes the central retrieve or scan again. */
  lemma {:induction false} NoRetrievalAfterLastConnection(c: Central, inputs: seq<Input>, decode: Decoder)
    requires c.connectionIterationsComplete >= DefaultIterations
    requires forall i :: 0 <= i < |inputs| ==> inputs[i].event != StateUpdated(PoweredOn)
    ensures Retrieve !in Run(c, inputs, decode).commands
    ensures Scan !in Run(c, inputs, decode).commands
    decreases |inputs|
  {
    if |inputs| > 0 {
      var first := Step(c, inputs[0], decode);
      assert Retrieve !in first.commands;
      NoRetrievalAfterLastConnection(first.central, inputs[1..], decode);
    }
  }

  /** Whatever the callbacks, the reply counter never passes `DefaultIterations`. */
  lemma {:induction false} RunBoundsWrites(c: Central, inputs: seq<Input>, decode: Decoder)
    requires c.writeIterationsComplete <= DefaultIterations
    ensures Run(c, inputs, decode).central.writeIterationsComplete <= DefaultIterations
    decreases |inputs|
  {
    if |inputs| > 0 {
      RunBoundsWrites(Step(c, inputs[0], decode).central, inputs[1..], decode);
    }
  }

  // Reassembly.

  /** The values notified in order, without error, with the same platform answers. */
  function Notifications(values: seq<Bytes>, p: Platform): seq<Input>
  {
    if |values| == 0 then []
    else [Input(ValueUpdated(false, Some(values[0])), p)] + Notifications(values[1..], p)
  }

  lemma {:induction false} NotificationsAppend(a: seq<Bytes>, b: seq<Bytes>, p: Platform)
    ensures Notifications(a + b, p) == Notifications(a, p) + Notifications(b, p)
  {
    if |a| == 0 {
      assert a + b == b;
    } else {
      assert (a + b)[1..] == a[1..] + b;
      NotificationsAppend(a[1..], b, p);
    }
  }

  /** One decodable value other than the sentinel is appended and nothing else happens. */
  lemma FragmentReceived(c: Central, value: Bytes, p: Platform, decode: Decoder)
    requires decode(value).Some? && decode(value) != Some(Sentinel)
    ensures Step(c, Input(ValueUpdated(false, Some(value)), p), decode) == Reaction(c.(data := c.data + value), [])
  {
  }

  /** Fragments that decode, none of them to the sentinel, are appended to the buffer in
      arrival order, and nothing else happens. */
  lemma {:induction false} ReceiveFragments(c: Central, values: seq<Bytes>, p: Platform, decode: Decoder)
    requires forall i :: 0 <= i < |values| ==> decode(values[i]).Some? && decode(values[i]) != Some(Sentinel)
    ensures Run(c, Notifications(values, p), decode) == Reaction(c.(data := c.data + Flatten(values)), [])
    decreases |values|
  {
    if |values| > 0 {
      var next := c.(data := c.data + values[0]);
      FragmentReceived(c, values[0], p, decode);
      assert Notifications(values, p)[1..] == Notifications(values[1..], p);
      ReceiveFragments(next, values[1..], p, decode);
      assert c.data + values[0] + Flatten(values[1..]) == c.data + Flatten(values);
    }
  }

  /** The sentinel alone: the reply loop runs, then the buffer is handed off, and the
      reply loop itself hands nothing off. */
  lemma SentinelReceived(c: Central, p: Platform, decode: Decoder)
    requires decode(SentinelBytes) == Some(Sentinel)
    ensures var w := WriteData(c, p.canSendWrite);
            && Run(c, Notifications([SentinelBytes], p), decode) == Reaction(w.central, w.commands + [HandOff(c.data)])
            && w.central.data == c.data
            && forall k :: 0 <= k < |w.commands| ==> !w.commands[k].HandOff?
  {
    var w := WriteData(c, p.canSendWrite);
    var last := Notifications([SentinelBytes], p);
    var one: seq<Bytes> := [SentinelBytes];
    assert one[1..] == [];
    assert Notifications(one[1..], p) == [];
    assert last == [Input(ValueUpdated(false, Some(SentinelBytes)), p)];
    assert Step(c, last[0], decode) == Reaction(w.central, w.commands + [HandOff(c.data)]);
    assert Run(w.central, last[1..], decode) == Reaction(w.central, []);
  }

  /** Fragments followed by the sentinel: the buffer holds their concatenation, and the
      last thing the central does is hand exactly that to the view, after the reply
      writes; nothing earlier is handed off. */
  lemma ReceiveMessage(c: Central, values: seq<Bytes>, p: Platform, decode: Decoder)
    requires forall i :: 0 <= i < |values| ==> decode(values[i]).Some? && decode(values[i]) != Some(Sentinel)
    requires decode(SentinelBytes) == Some(Sentinel)
    ensures var r := Run(c, Notifications(values + [SentinelBytes], p), decode);
            && r.central.data == c.data + Flatten(values)
            && |r.commands| >= 1
            && r.commands[|r.commands| - 1] == HandOff(c.data + Flatten(values))
            && forall k :: 0 <= k < |r.commands| - 1 ==> !r.commands[k].HandOff?
  {
    NotificationsAppend(values, [SentinelBytes], p);
    RunAppend(c, Notifications(values, p), Notifications([SentinelBytes], p), decode);
    ReceiveFragments(c, values, p, decode);
    SentinelReceived(c.(data := c.data + Flatten(values)), p, decode);
  }
}

=== FILE: peripheral.dfy ===
/** The peripheral (sending) role: the state the peripheral view controller keeps for one
    outbound transfer, the `sendData` send loop with its flow control, and the
    subscription and readiness callbacks that drive it.

    The transport is an answer script: the `i`-th write of one callback is accepted iff
    `Answer(script, i)`. Every write attempt is logged, with its fate, in an `Attempt`. */
module PeripheralSide {
  import opened Ble

  /** A central's maximum update value length. CoreBluetooth never reports less than one
      byte; with zero the send loop would write empty chunks forever. */
  type Mtu = n: int | 1 <= n witness 1

  /** A subscribed central, as far as the sender looks at it. */
  datatype Subscriber = Subscriber(maximumUpdateValueLength: Mtu)

  /** `hasCharacteristic` says whether the transfer characteristic has been set up;
      `sendingEOM` is the class-wide sentinel-pending flag. */
  datatype Sender = Sender(
    hasCharacteristic: bool,
    dataToSend: Bytes,
    sendDataIndex: nat,
    sendingEOM: bool,
    connectedCentral: Option<Subscriber>)

  /** A packet written to the characteristic: a slice of the payload or the sentinel. */
  datatype Packet = Chunk(bytes: Bytes) | Eom
  {
    /** The bytes that go on the air. */
    function Value(): Bytes
    {
      match this
      case Chunk(b) => b
      case Eom => SentinelBytes
    }
  }

  /** One call of the transport's update-value, and whether the transport accepted it. */
  datatype Attempt = Attempt(packet: Packet, accepted: bool)

  /** The sender after a callback, the writes it attempted, and the unused answers. */
  datatype Outcome = Outcome(sender: Sender, attempts: seq<Attempt>, rest: seq<bool>)

  /** Every attempt's fate is the transport's answer to it, in order. */
  ghost predicate Answered(script: seq<bool>, attempts: seq<Attempt>, rest: seq<bool>)
  {
    && (forall i :: 0 <= i < |attempts| ==> attempts[i].accepted == Answer(script, i))
    && rest == Skip(script, |attempts|)
  }

  /** The payload chunks the transport accepted, in order. */
  function AcceptedChunks(attempts: seq<Attempt>): seq<Bytes>
  {
    if |attempts| == 0 then []
    else
      var head := attempts[0];
      (if head.accepted && head.packet.Chunk? then [head.packet.bytes] else []) + AcceptedChunks(attempts[1..])
  }

  /** How many sentinel writes the transport accepted. */
  function AcceptedSentinels(attempts: seq<Attempt>): nat
  {
    if |attempts| == 0 then 0
    else (if attempts[0] == Attempt(Eom, true) then 1 else 0) + AcceptedSentinels(attempts[1..])
  }

  /** The values that reach the subscribed central: every accepted packet, in order. */
  function Delivered(attempts: seq<Attempt>): seq<Bytes>
  {
    if |attempts| == 0 then []
    else (if attempts[0].accepted then [attempts[0].packet.Value()] else []) + Delivered(attempts[1..])
  }

  lemma {:induction false} AcceptedChunksAppend(a: seq<Attempt>, b: seq<Attempt>)
    ensures AcceptedChunks(a + b) == AcceptedChunks(a) + AcceptedChunks(b)
  {
    if |a| > 0 {
      assert (a + b)[0] == a[0];
      assert (a + b)[1..] == a[1..] + b;
      AcceptedChunksAppend(a[1..], b);
    } else {
      assert a + b == b;
    }
  }

  lemma {:induction false} AcceptedSentinelsAppend(a: seq<Attempt>, b: seq<Attempt>)
    ensures AcceptedSentinels(a + b) == AcceptedSentinels(a) + AcceptedSentinels(b)
  {
    if |a| > 0 {
      assert (a + b)[0] == a[0];
      assert (a + b)[1..] == a[1..] + b;
      AcceptedSentinelsAppend(a[1..], b);
    } else {
      assert a + b == b;
    }
  }

  lemma {:induction false} DeliveredAppend(a: seq<Attempt>, b: seq<Attempt>)
    ensures Delivered(a + b) == Delivered(a) + Delivered(b)
  {
    if |a| > 0 {
      assert (a + b)[0] == a[0];
      assert (a + b)[1..] == a[1..] + b;
      DeliveredAppend(a[1..], b);
    } else {
      assert a + b == b;
    }
  }

  /** The three views of a log distribute over its concatenation. */
  lemma AttemptsAppend(a: seq<Attempt>, b: seq<Attempt>)
    ensures AcceptedChunks(a + b) == AcceptedChunks(a) + AcceptedChunks(b)
    ensures AcceptedSentinels(a + b) == AcceptedSentinels(a) + AcceptedSentinels(b)
    ensures Delivered(a + b) == Delivered(a) + Delivered(b)
  {
    AcceptedChunksAppend(a, b);
    AcceptedSentinelsAppend(a, b);
    DeliveredAppend(a, b);
  }

  /** What reaches the central is the accepted chunks followed by at most one sentinel. */
  ghost predicate SentinelLast(attempts: seq<Attempt>)
  {
    && AcceptedSentinels(attempts) <= 1
    && Delivered(attempts) == AcceptedChunks(attempts) + (if AcceptedSentinels(attempts) == 1 then [SentinelBytes] else [])
  }

  /** Only the last write of a callback can be refused or be the sentinel. */
  ghost predicate OnlyLastStops(attempts: seq<Attempt>)
  {
    forall i :: 0 <= i < |attempts| - 1 ==> attempts[i].accepted && attempts[i].packet.Chunk?
  }

  /** The sentinel is pending only once the whole payload has been accepted. */
  ghost predicate Coherent(s: Sender)
  {
    s.sendingEOM ==> s.sendDataIndex >= |s.dataToSend|
  }

  /** A callback does not change the payload, the subscriber or the characteristic. */
  ghost predicate SameTransfer(s: Sender, t: Sender)
  {
    && t.hasCharacteristic == s.hasCharacteristic
    && t.dataToSend == s.dataToSend
    && t.connectedCentral == s.connectedCentral
  }

  /** The number of bytes the next chunk carries: everything that is left, capped by the
      subscriber's MTU when a subscriber is recorded. */
  function ChunkSize(remaining: nat, central: Option<Subscriber>): (amount: nat)
    requires remaining >= 1
    ensures 1 <= amount <= remaining
    ensures central.None? ==> amount == remaining
    ensures central.Some? ==> amount <= central.value.maximumUpdateValueLength
    ensures amount == remaining || (central.Some? && amount == central.value.maximumUpdateValueLength)
  {
    match central
    case None => remaining
    case Some(c) => if c.maximumUpdateValueLength < remaining then c.maximumUpdateValueLength else remaining
  }

  /** The chunk the sender writes next when its cursor stands at `from`. */
  function NextChunk(data: Bytes, from: nat, central: Option<Subscriber>): Bytes
    requires from < |data|
  {
    data[from..from + ChunkSize(|data| - from, central)]
  }

  /** The reference fragmentation of `data` from byte `from` on: the consecutive slices
      the sender writes when the transport accepts everything. */
  function Fragment(data: Bytes, from: nat, central: Option<Subscriber>): seq<Bytes>
    requires from <= |data|
    decreases |data| - from
  {
    if from == |data| then []
    else
      var n := ChunkSize(|data| - from, central);
      [data[from..from + n]] + Fragment(data, from + n, central)
  }

  /** Reassembling the fragments gives back the bytes they were cut from. */
  lemma {:induction false} FragmentReassembles(data: Bytes, from: nat, central: Option<Subscriber>)
    requires from <= |data|
    ensures Flatten(Fragment(data, from, central)) == data[from..]
    decreases |data| - from
  {
    if from < |data| {
      var n := ChunkSize(|data| - from, central);
      FragmentReassembles(data, from + n, central);
      assert data[from..] == data[from..from + n] + data[from + n..];
    }
  }

  /** No fragment is empty, and none exceeds the subscriber's MTU. */
  lemma {:induction false} FragmentSizes(data: Bytes, from: nat, central: Option<Subscriber>)
    requires from <= |data|
    ensures forall i :: 0 <= i < |Fragment(data, from, central)| ==>
              && 1 <= |Fragment(data, from, central)[i]|
              && (central.Some? ==> |Fragment(data, from, central)[i]| <= central.value.maximumUpdateValueLength)
    decreases |data| - from
  {
    if from < |data| {
      var n := ChunkSize(|data| - from, central);
      FragmentSizes(data, from + n, central);
    }
  }

  /** The `while didSend` loop of `sendData`, entered with bytes left and no sentinel
      pending. Each round writes the next fragment; a refusal ends the call with the
      cursor where it was; once the cursor reaches the end the sentinel is flagged and
      tried at once, the flag being cleared only if that write is accepted. */
  function SendLoop(s: Sender, script: seq<bool>): (o: Outcome)
    requires s.hasCharacteristic && !s.sendingEOM && s.sendDataIndex < |s.dataToSend|
    ensures SameTransfer(s, o.sender)
    ensures s.sendDataIndex <= o.sender.sendDataIndex <= |s.dataToSend|
    ensures 1 <= |o.attempts|
    decreases |s.dataToSend| - s.sendDataIndex
  {
    var n := ChunkSize(|s.dataToSend| - s.sendDataIndex, s.connectedCentral);
    var chunk := s.dataToSend[s.sendDataIndex..s.sendDataIndex + n];
    var didSend := Answer(script, 0);
    if !didSend then
      Outcome(s, [Attempt(Chunk(chunk), false)], Skip(script, 1))
    else
      var advanced := s.(sendDataIndex := s.sendDataIndex + n);
      var rest := Skip(script, 1);
      if advanced.sendDataIndex >= |s.dataToSend| then
        var eomSent := Answer(rest, 0);
        var flagged := advanced.(sendingEOM := true);
        var after := if eomSent then flagged.(sendingEOM := false) else flagged;
        Outcome(after, [Attempt(Chunk(chunk), true), Attempt(Eom, eomSent)], Skip(rest, 1))
      else
        var o := SendLoop(advanced, rest);
        Outcome(o.sender, [Attempt(Chunk(chunk), true)] + o.attempts, o.rest)
  }

  /** Each write of the loop meets the transport's next answer, in order. */
  lemma {:induction false} SendLoopAnswered(s: Sender, script: seq<bool>)
    requires s.hasCharacteristic && !s.sendingEOM && s.sendDataIndex < |s.dataToSend|
    ensures Answered(script, SendLoop(s, script).attempts, SendLoop(s, script).rest)
    decreases |s.dataToSend| - s.sendDataIndex
  {
    var o := SendLoop(s, script);
    var n := ChunkSize(|s.dataToSend| - s.sendDataIndex, s.connectedCentral);
    var advanced := s.(sendDataIndex := s.sendDataIndex + n);
    if Answer(script, 0) {
      var rest := Skip(script, 1);
      if advanced.sendDataIndex >= |s.dataToSend| {
        SkipAnswer(script, 1, 0);
        SkipSkip(script, 1, 1);
      } else {
        var inner := SendLoop(advanced, rest);
        SendLoopAnswered(advanced, rest);
        assert o.attempts == [o.attempts[0]] + inner.attempts;
        forall i | 1 <= i < |o.attempts|
          ensures o.attempts[i].accepted == Answer(script, i)
        {
          assert o.attempts[i] == inner.attempts[i - 1];
          SkipAnswer(script, 1, i - 1);
        }
        SkipSkip(script, 1, |inner.attempts|);
      }
    }
  }

  /** One round of the loop, unfolded: a refused chunk ends it; an accepted last chunk is
      followed by the sentinel; any other accepted chunk is followed by the rest of the
      loop from the advanced cursor. */
  lemma SendLoopUnfold(s: Sender, script: seq<bool>)
    requires s.hasCharacteristic && !s.sendingEOM && s.sendDataIndex < |s.dataToSend|
    ensures var next := s.sendDataIndex + ChunkSize(|s.dataToSend| - s.sendDataIndex, s.connectedCentral);
            var chunk := Chunk(NextChunk(s.dataToSend, s.sendDataIndex, s.connectedCentral));
            var o := SendLoop(s, script);
            && (!Answer(script, 0) ==> o == Outcome(s, [Attempt(chunk, false)], Skip(script, 1)))
            && (Answer(script, 0) && next >= |s.dataToSend| ==>
                  var eomSent := Answer(script, 1);
                  && o.sender == s.(sendDataIndex := next, sendingEOM := !eomSent)
                  && o.attempts == [Attempt(chunk, true), Attempt(Eom, eomSent)]
                  && o.rest == Skip(script, 2))
            && (Answer(script, 0) && next < |s.dataToSend| ==>
                  var inner := SendLoop(s.(sendDataIndex := next), Skip(script, 1));
                  o == Outcome(inner.sender, [Attempt(chunk, true)] + inner.attempts, inner.rest))
  {
    SkipAnswer(script, 1, 0);
    SkipSkip(script, 1, 1);
  }

  /** The accepted chunks of the loop are the reference fragments up to the new cursor. */
  lemma {:induction false} SendLoopPrefix(s: Sender, script: seq<bool>)
    requires s.hasCharacteristic && !s.sendingEOM && s.sendDataIndex < |s.dataToSend|
    ensures var o := SendLoop(s, script);
            AcceptedChunks(o.attempts) + Fragment(s.dataToSend, o.sender.sendDataIndex, s.connectedCentral)
            == Fragment(s.dataToSend, s.sendDataIndex, s.connectedCentral)
    decreases |s.dataToSend| - s.sendDataIndex
  {
    var o := SendLoop(s, script);
    var data, c := s.dataToSend, s.connectedCentral;
    var next := s.sendDataIndex + ChunkSize(|data| - s.sendDataIndex, c);
    var chunk := NextChunk(data, s.sendDataIndex, c);
    var sent := Attempt(Chunk(chunk), true);
    assert Fragment(data, s.sendDataIndex, c) == [chunk] + Fragment(data, next, c);
    if !Answer(script, 0) {
      assert o.attempts == [Attempt(Chunk(chunk), false)] && o.sender == s by {
        SendLoopUnfold(s, script);
      }
      assert AcceptedChunks(o.attempts) == [] by {
        SingleAttempt(Attempt(Chunk(chunk), false));
      }
    } else if next >= |data| {
      var eom := Attempt(Eom, Answer(script, 1));
      assert o.attempts == [sent] + [eom] && o.sender.sendDataIndex == next by {
        SendLoopUnfold(s, script);
      }
      assert AcceptedChunks(o.attempts) == [chunk] by {
        AcceptedChunksAppend([sent], [eom]);
        SingleAttempt(sent);
        SingleAttempt(eom);
      }
      assert Fragment(data, next, c) == [];
    } else {
      var advanced := s.(sendDataIndex := next);
      var inner := SendLoop(advanced, Skip(script, 1));
      assert o.attempts == [sent] + inner.attempts && o.sender == inner.sender by {
        SendLoopUnfold(s, script);
      }
      assert AcceptedChunks(o.attempts) == [chunk] + AcceptedChunks(inner.attempts) by {
        AcceptedChunksAppend([sent], inner.attempts);
        SingleAttempt(sent);
      }
      SendLoopPrefix(advanced, Skip(script, 1));
      ConsPrefix(chunk, AcceptedChunks(inner.attempts), Fragment(data, inner.sender.sendDataIndex, c), Fragment(data, next, c));
    }
  }

  /** Every write of the loop but the last is an accepted chunk. */
  lemma {:induction false} SendLoopStops(s: Sender, script: seq<bool>)
    requires s.hasCharacteristic && !s.sendingEOM && s.sendDataIndex < |s.dataToSend|
    ensures OnlyLastStops(SendLoop(s, script).attempts)
    decreases |s.dataToSend| - s.sendDataIndex
  {
    var o := SendLoop(s, script);
    var next := s.sendDataIndex + ChunkSize(|s.dataToSend| - s.sendDataIndex, s.connectedCentral);
    var sent := Attempt(Chunk(NextChunk(s.dataToSend, s.sendDataIndex, s.connectedCentral)), true);
    if Answer(script, 0) && next < |s.dataToSend| {
      var advanced := s.(sendDataIndex := next);
      var inner := SendLoop(advanced, Skip(script, 1));
      assert o.attempts == [sent] + inner.attempts by {
        SendLoopUnfold(s, script);
      }
      SendLoopStops(advanced, Skip(script, 1));
      OnlyLastStopsCons(sent, inner.attempts);
    } else {
      assert |o.attempts| <= 2 && (|o.attempts| == 2 ==> o.attempts[0] == sent) by {
        SendLoopUnfold(s, script);
      }
    }
  }

  /** The last write of the loop is the refused next fragment while bytes remain, and the
      sentinel once the cursor has reached the end, the flag staying set exactly when
      that sentinel write was refused. */
  lemma {:induction false} SendLoopLast(s: Sender, script: seq<bool>)
    requires s.hasCharacteristic && !s.sendingEOM && s.sendDataIndex < |s.dataToSend|
    ensures var o := SendLoop(s, script);
            && (o.sender.sendDataIndex < |s.dataToSend| ==>
                  && !o.sender.sendingEOM
                  && o.attempts[|o.attempts| - 1]
                     == Attempt(Chunk(NextChunk(s.dataToSend, o.sender.sendDataIndex, s.connectedCentral)), false))
            && (o.sender.sendDataIndex == |s.dataToSend| ==>
                  o.attempts[|o.attempts| - 1] == Attempt(Eom, !o.sender.sendingEOM))
  {
    SendLoopLastRefused(s, script);
    SendLoopLastSentinel(s, script);
  }

  /** After an accepted chunk that does not reach the end, the loop ends where the rest of
      the loop ends, with the same last write. */
  lemma SendLoopAdvanceLast(s: Sender, script: seq<bool>)
    requires s.hasCharacteristic && !s.sendingEOM && s.sendDataIndex < |s.dataToSend|
    requires Answer(script, 0)
    requires s.sendDataIndex + ChunkSize(|s.dataToSend| - s.sendDataIndex, s.connectedCentral) < |s.dataToSend|
    ensures var o := SendLoop(s, script);
            var inner := SendLoop(s.(sendDataIndex := s.sendDataIndex + ChunkSize(|s.dataToSend| - s.sendDataIndex, s.connectedCentral)), Skip(script, 1));
            && o.sender == inner.sender
            && o.attempts[|o.attempts| - 1] == inner.attempts[|inner.attempts| - 1]
  {
    var o := SendLoop(s, script);
    var inner := SendLoop(s.(sendDataIndex := s.sendDataIndex + ChunkSize(|s.dataToSend| - s.sendDataIndex, s.connectedCentral)), Skip(script, 1));
    SendLoopUnfold(s, script);
    assert o.attempts == [Attempt(Chunk(NextChunk(s.dataToSend, s.sendDataIndex, s.connectedCentral)), true)] + inner.attempts;
  }

  /** A loop whose cursor stops short of the end of `data` left the sentinel unflagged
      and stopped on the refused fragment at that cursor. */
  ghost predicate StopsOnRefusal(data: Bytes, central: Option<Subscriber>, sender: Sender, last: Attempt)
  {
    sender.sendDataIndex < |data| ==>
      && !sender.sendingEOM
      && last == Attempt(Chunk(NextChunk(data, sender.sendDataIndex, central)), false)
  }

  /** A loop that ends in its first round stops on the refused first chunk, or reaches
      the end. */
  lemma SendLoopFirstRoundRefused(s: Sender, script: seq<bool>)
    requires s.hasCharacteristic && !s.sendingEOM && s.sendDataIndex < |s.dataToSend|
    requires !Answer(script, 0)
             || s.sendDataIndex + ChunkSize(|s.dataToSend| - s.sendDataIndex, s.connectedCentral) >= |s.dataToSend|
    ensures var o := SendLoop(s, script);
            StopsOnRefusal(s.dataToSend, s.connectedCentral, o.sender, o.attempts[|o.attempts| - 1])
  {
    SendLoopUnfold(s, script);
  }

  /** A loop that stops before the end stops on the refused next chunk. */
  lemma {:induction false} SendLoopLastRefused(s: Sender, script: seq<bool>)
    requires s.hasCharacteristic && !s.sendingEOM && s.sendDataIndex < |s.dataToSend|
    ensures var o := SendLoop(s, script);
            StopsOnRefusal(s.dataToSend, s.connectedCentral, o.sender, o.attempts[|o.attempts| - 1])
    decreases |s.dataToSend| - s.sendDataIndex
  {
    var next := s.sendDataIndex + ChunkSize(|s.dataToSend| - s.sendDataIndex, s.connectedCentral);
    if Answer(script, 0) && next < |s.dataToSend| {
      SendLoopAdvanceLast(s, script);
      SendLoopLastRefused(s.(sendDataIndex := next), Skip(script, 1));
    } else {
      SendLoopFirstRoundRefused(s, script);
    }
  }

  /** A loop that reaches the end stops on the sentinel, and the flag stays set exactly
      when the sentinel was refused. */
  lemma {:induction false} SendLoopLastSentinel(s: Sender, script: seq<bool>)
    requires s.hasCharacteristic && !s.sendingEOM && s.sendDataIndex < |s.dataToSend|
    ensures var o := SendLoop(s, script);
            o.sender.sendDataIndex == |s.dataToSend| ==>
              o.attempts[|o.attempts| - 1] == Attempt(Eom, !o.sender.sendingEOM)
    decreases |s.dataToSend| - s.sendDataIndex
  {
    var o := SendLoop(s, script);
    var next := s.sendDataIndex + ChunkSize(|s.dataToSend| - s.sendDataIndex, s.connectedCentral);
    if !Answer(script, 0) {
      assert o.sender == s by {
        SendLoopUnfold(s, script);
      }
    } else if next >= |s.dataToSend| {
      assert && o.attempts[|o.attempts| - 1] == Attempt(Eom, Answer(script, 1))
             && o.sender.sendingEOM == !Answer(script, 1) by {
        SendLoopUnfold(s, script);
      }
    } else {
      var advanced := s.(sendDataIndex := next);
      SendLoopAdvanceLast(s, script);
      SendLoopLastSentinel(advanced, Skip(script, 1));
    }
  }

  /** Prefixing an accepted chunk keeps only the last write able to stop, and keeps the
      last write. */
  lemma OnlyLastStopsCons(a: Attempt, rest: seq<Attempt>)
    requires a.accepted && a.packet.Chunk?
    requires |rest| >= 1 && OnlyLastStops(rest)
    ensures OnlyLastStops([a] + rest)
    ensures ([a] + rest)[|rest|] == rest[|rest| - 1]
  {
    var all := [a] + rest;
    forall i | 1 <= i < |all| - 1
      ensures all[i].accepted && all[i].packet.Chunk?
    {
      assert all[i] == rest[i - 1];
    }
  }

  /** The loop's flow control: `SendLoopPrefix`, `SendLoopStops` and `SendLoopLast`
      together. */
  lemma SendLoopFragments(s: Sender, script: seq<bool>)
    requires s.hasCharacteristic && !s.sendingEOM && s.sendDataIndex < |s.dataToSend|
    ensures var o := SendLoop(s, script);
            && AcceptedChunks(o.attempts) + Fragment(s.dataToSend, o.sender.sendDataIndex, s.connectedCentral)
               == Fragment(s.dataToSend, s.sendDataIndex, s.connectedCentral)
            && OnlyLastStops(o.attempts)
            && (o.sender.sendDataIndex < |s.dataToSend| ==>
                  && !o.sender.sendingEOM
                  && o.attempts[|o.attempts| - 1]
                     == Attempt(Chunk(NextChunk(s.dataToSend, o.sender.sendDataIndex, s.connectedCentral)), false))
            && (o.sender.sendDataIndex == |s.dataToSend| ==>
                  o.attempts[|o.attempts| - 1] == Attempt(Eom, !o.sender.sendingEOM))
  {
    SendLoopPrefix(s, script);
    SendLoopStops(s, script);
    SendLoopLast(s, script);
  }

  /** At most one sentinel is accepted, after every accepted chunk, and one is accepted
      exactly when the loop ends with the cursor at the end and the flag clear. */
  lemma {:induction false} SendLoopSentinel(s: Sender, script: seq<bool>)
    requires s.hasCharacteristic && !s.sendingEOM && s.sendDataIndex < |s.dataToSend|
    ensures var o := SendLoop(s, script);
            && SentinelLast(o.attempts)
            && (AcceptedSentinels(o.attempts) == 1 <==> o.sender.sendDataIndex == |s.dataToSend| && !o.sender.sendingEOM)
    decreases |s.dataToSend| - s.sendDataIndex
  {
    var o := SendLoop(s, script);
    var next := s.sendDataIndex + ChunkSize(|s.dataToSend| - s.sendDataIndex, s.connectedCentral);
    var chunk := NextChunk(s.dataToSend, s.sendDataIndex, s.connectedCentral);
    var sent := Attempt(Chunk(chunk), true);
    if !Answer(script, 0) {
      var refused := Attempt(Chunk(chunk), false);
      assert o.attempts == [refused] && o.sender == s by {
        SendLoopUnfold(s, script);
      }
      SingleAttempt(refused);
    } else if next >= |s.dataToSend| {
      var eom := Attempt(Eom, Answer(script, 1));
      assert && o.attempts == [sent] + [eom]
             && o.sender.sendDataIndex == |s.dataToSend|
             && o.sender.sendingEOM == !Answer(script, 1) by {
        SendLoopUnfold(s, script);
      }
      SingleAttempt(sent);
      SingleAttempt(eom);
      AttemptsAppend([sent], [eom]);
    } else {
      var advanced := s.(sendDataIndex := next);
      var inner := SendLoop(advanced, Skip(script, 1));
      assert o.attempts == [sent] + inner.attempts && o.sender == inner.sender by {
        SendLoopUnfold(s, script);
      }
      SendLoopSentinel(advanced, Skip(script, 1));
      SingleAttempt(sent);
      AttemptsAppend([sent], inner.attempts);
      ConsPrefix(chunk, AcceptedChunks(inner.attempts),
                 if AcceptedSentinels(inner.attempts) == 1 then [SentinelBytes] else [], Delivered(inner.attempts));
    }
  }

  lemma SingleAttempt(a: Attempt)
    ensures AcceptedChunks([a]) == (if a.accepted && a.packet.Chunk? then [a.packet.bytes] else [])
    ensures AcceptedSentinels([a]) == (if a == Attempt(Eom, true) then 1 else 0)
    ensures Delivered([a]) == (if a.accepted then [a.packet.Value()] else [])
  {
    assert [a][1..] == [];
  }

  /** `sendData`: nothing without the characteristic; a pending sentinel is retried
      alone, without touching the cursor; nothing once the payload is exhausted;
      otherwise the send loop. */
  function SendData(s: Sender, script: seq<bool>): (o: Outcome)
    ensures SameTransfer(s, o.sender)
    ensures s.sendDataIndex <= o.sender.sendDataIndex
    ensures s.sendDataIndex <= |s.dataToSend| ==> o.sender.sendDataIndex <= |s.dataToSend|
    ensures !s.hasCharacteristic ==> o.sender == s && o.attempts == []
    ensures s.hasCharacteristic && s.sendingEOM ==>
              && o.attempts == [Attempt(Eom, Answer(script, 0))]
              && o.sender == s.(sendingEOM := !Answer(script, 0))
    ensures !s.sendingEOM && s.sendDataIndex >= |s.dataToSend| ==> o.sender == s && o.attempts == []
  {
    if !s.hasCharacteristic then
      Outcome(s, [], script)
    else if s.sendingEOM then
      var didSend := Answer(script, 0);
      Outcome(if didSend then s.(sendingEOM := false) else s, [Attempt(Eom, didSend)], Skip(script, 1))
    else if s.sendDataIndex >= |s.dataToSend| then
      Outcome(s, [], script)
    else
      SendLoop(s, script)
  }

  /** Flow control in one `sendData` call: each write meets the transport's next answer;
      only the last write can be refused; the cursor stays within the payload and stands
      just after the accepted reference fragments; a refused chunk is the very next
      fragment and leaves the cursor and the flag untouched. */
  lemma SendDataFlowControl(s: Sender, script: seq<bool>)
    requires s.sendDataIndex <= |s.dataToSend|
    ensures var o := SendData(s, script);
            && Answered(script, o.attempts, o.rest)
            && OnlyLastStops(o.attempts)
            && o.sender.sendDataIndex <= |s.dataToSend|
            && AcceptedChunks(o.attempts) + Fragment(s.dataToSend, o.sender.sendDataIndex, s.connectedCentral)
               == Fragment(s.dataToSend, s.sendDataIndex, s.connectedCentral)
            && (|o.attempts| > 0 && o.attempts[|o.attempts| - 1].packet.Chunk? && !o.attempts[|o.attempts| - 1].accepted ==>
                  && o.sender.sendDataIndex < |s.dataToSend|
                  && !o.sender.sendingEOM
                  && o.attempts[|o.attempts| - 1].packet.bytes
                     == NextChunk(s.dataToSend, o.sender.sendDataIndex, s.connectedCentral))
  {
    SendDataAnswered(s, script);
    if s.hasCharacteristic && !s.sendingEOM && s.sendDataIndex < |s.dataToSend| {
      SendLoopFragments(s, script);
    }
  }

  /** Each write of one `sendData` call meets the transport's next answer, and only the
      last one can stop the call. */
  lemma SendDataAnswered(s: Sender, script: seq<bool>)
    ensures var o := SendData(s, script);
            Answered(script, o.attempts, o.rest) && OnlyLastStops(o.attempts)
  {
    if s.hasCharacteristic && !s.sendingEOM && s.sendDataIndex < |s.dataToSend| {
      SendLoopAnswered(s, script);
      SendLoopFragments(s, script);
    }
  }

  /** The sentinel in one `sendData` call: at most one is accepted, after every accepted
      chunk; and from a state whose flag is coherent with its cursor, the flag stays
      coherent and an accepted sentinel means the payload is done. */
  lemma SendDataSentinel(s: Sender, script: seq<bool>)
    ensures var o := SendData(s, script);
            && SentinelLast(o.attempts)
            && (Coherent(s) ==>
                  && Coherent(o.sender)
                  && (AcceptedSentinels(o.attempts) == 1 ==>
                        o.sender.sendDataIndex >= |s.dataToSend| && !o.sender.sendingEOM))
  {
    if s.hasCharacteristic && !s.sendingEOM && s.sendDataIndex < |s.dataToSend| {
      SendLoopSentinel(s, script);
      SendLoopFragments(s, script);
    }
  }

  /** The send loop as the source writes it: a `while didSend` loop over a cursor. */
  method SendDataLoop(s: Sender, script: seq<bool>) returns (o: Outcome)
    ensures o == SendData(s, script)
  {
    if !s.hasCharacteristic {
      return Outcome(s, [], script);
    }
    if s.sendingEOM {
      var didSend := Answer(script, 0);
      var after := s;
      if didSend {
        after := s.(sendingEOM := false);
      }
      return Outcome(after, [Attempt(Eom, didSend)], Skip(script, 1));
    }
    if s.sendDataIndex >= |s.dataToSend| {
      return Outcome(s, [], script);
    }
    o := SendChunks(s, script);
  }

  /** The outcome `o` preceded by the writes in `log`. */
  function Prepend(log: seq<Attempt>, o: Outcome): Outcome
  {
    Outcome(o.sender, log + o.attempts, o.rest)
  }

  lemma PrependTwice(x: seq<Attempt>, y: seq<Attempt>, o: Outcome)
    ensures Prepend(x, Prepend(y, o)) == Prepend(x + y, o)
  {
    assert x + (y + o.attempts) == (x + y) + o.attempts;
  }

  /** The `while didSend` loop itself, with the cursor and the answers it consumes. */
  method SendChunks(s: Sender, script: seq<bool>) returns (o: Outcome)
    requires s.hasCharacteristic && !s.sendingEOM && s.sendDataIndex < |s.dataToSend|
    ensures o == SendLoop(s, script)
  {
    var cur := s;
    var answers := script;
    var log: seq<Attempt> := [];
    var didSend := true;
    while didSend
      invariant SameTransfer(s, cur) && !cur.sendingEOM && cur.sendDataIndex < |s.dataToSend|
      invariant didSend ==> SendLoop(s, script) == Prepend(log, SendLoop(cur, answers))
      invariant !didSend ==> SendLoop(s, script) == Outcome(cur, log, answers)
      decreases |s.dataToSend| - cur.sendDataIndex, didSend
    {
      ghost var before, asked, logged := cur, answers, log;
      var amountToSend := ChunkSize(|cur.dataToSend| - cur.sendDataIndex, cur.connectedCentral);
      var chunk := cur.dataToSend[cur.sendDataIndex..cur.sendDataIndex + amountToSend];
      didSend := Answer(answers, 0);
      answers := Skip(answers, 1);
      log := log + [Attempt(Chunk(chunk), didSend)];
      if !didSend {
        assert SendLoop(before, asked) == Outcome(cur, [Attempt(Chunk(chunk), false)], answers) by {
          SendLoopUnfold(before, asked);
        }
        return Outcome(cur, log, answers);
      }
      cur := cur.(sendDataIndex := cur.sendDataIndex + amountToSend);
      if cur.sendDataIndex >= |cur.dataToSend| {
        cur := cur.(sendingEOM := true);
        var eomSent := Answer(answers, 0);
        if eomSent {
          cur := cur.(sendingEOM := false);
        }
        o := Outcome(cur, log + [Attempt(Eom, eomSent)], Skip(answers, 1));
        assert SendLoop(before, asked) == Outcome(cur, [Attempt(Chunk(chunk), true), Attempt(Eom, eomSent)], Skip(answers, 1)) by {
          SendLoopUnfold(before, asked);
          SkipAnswer(asked, 1, 0);
          SkipSkip(asked, 1, 1);
        }
        PrependTwice(logged, [Attempt(Chunk(chunk), true)], Outcome(cur, [Attempt(Eom, eomSent)], Skip(answers, 1)));
        return;
      }
      assert SendLoop(before, asked) == Prepend([Attempt(Chunk(chunk), true)], SendLoop(cur, answers)) by {
        SendLoopUnfold(before, asked);
      }
      PrependTwice(logged, [Attempt(Chunk(chunk), true)], SendLoop(cur, answers));
    }
    return Outcome(cur, log, answers);
  }

  /** Successive `sendData` calls, one per readiness callback, each callback with its
      own answer script. Returns the final sender and every attempt in order. */
  function Drive(s: Sender, rounds: seq<seq<bool>>): (r: (Sender, seq<Attempt>))
    ensures SameTransfer(s, r.0)
    ensures s.sendDataIndex <= r.0.sendDataIndex
    ensures s.sendDataIndex <= |s.dataToSend| ==> r.0.sendDataIndex <= |s.dataToSend|
    decreases |rounds|
  {
    if |rounds| == 0 then (s, [])
    else
      var o := SendData(s, rounds[0]);
      var r := Drive(o.sender, rounds[1..]);
      (r.0, o.attempts + r.1)
  }

  /** Once the payload is done and no sentinel is pending, readiness callbacks send
      nothing and change nothing. */
  lemma {:induction false} DriveIdle(s: Sender, rounds: seq<seq<bool>>)
    requires s.sendDataIndex == |s.dataToSend| && !s.sendingEOM
    ensures Drive(s, rounds) == (s, [])
    decreases |rounds|
  {
    if |rounds| > 0 {
      var o := SendData(s, rounds[0]);
      assert o.sender == s && o.attempts == [];
      DriveIdle(s, rounds[1..]);
      var r := Drive(s, rounds[1..]);
      assert Drive(s, rounds) == (r.0, o.attempts + r.1);
      assert o.attempts + r.1 == r.1;
    }
  }

  /** Over any run of readiness callbacks, the cursor only moves forward, stays within
      the payload, and stands just after the accepted chunks, which are the reference
      fragments in order; a coherent sentinel flag stays coherent. */
  lemma {:induction false} DriveFragments(s: Sender, rounds: seq<seq<bool>>)
    requires s.sendDataIndex <= |s.dataToSend|
    ensures var (t, attempts) := Drive(s, rounds);
            && SameTransfer(s, t)
            && s.sendDataIndex <= t.sendDataIndex <= |s.dataToSend|
            && AcceptedChunks(attempts) + Fragment(s.dataToSend, t.sendDataIndex, s.connectedCentral)
               == Fragment(s.dataToSend, s.sendDataIndex, s.connectedCentral)
    decreases |rounds|
  {
    if |rounds| > 0 {
      var data, c := s.dataToSend, s.connectedCentral;
      var o := SendData(s, rounds[0]);
      var r := Drive(o.sender, rounds[1..]);
      assert Drive(s, rounds) == (r.0, o.attempts + r.1);
      SendDataFlowControl(s, rounds[0]);
      DriveFragments(o.sender, rounds[1..]);
      AttemptsAppend(o.attempts, r.1);
      PrefixCompose(AcceptedChunks(o.attempts), AcceptedChunks(r.1), Fragment(data, s.sendDataIndex, c),
                    Fragment(data, o.sender.sendDataIndex, c), Fragment(data, r.0.sendDataIndex, c));
    }
  }

  /** Over any run of readiness callbacks from a coherent state: at most one sentinel is
      accepted, it reaches the central after every accepted chunk, and once it has been
      accepted the payload is done and the flag is clear. */
  lemma {:induction false} DriveSentinel(s: Sender, rounds: seq<seq<bool>>)
    requires s.sendDataIndex <= |s.dataToSend| && Coherent(s)
    ensures var (t, attempts) := Drive(s, rounds);
            && Coherent(t)
            && SentinelLast(attempts)
            && (AcceptedSentinels(attempts) == 1 ==> t.sendDataIndex == |s.dataToSend| && !t.sendingEOM)
    decreases |rounds|
  {
    if |rounds| > 0 {
      var o := SendData(s, rounds[0]);
      var r := Drive(o.sender, rounds[1..]);
      assert Drive(s, rounds) == (r.0, o.attempts + r.1);
      SendDataSentinel(s, rounds[0]);
      DriveSentinel(o.sender, rounds[1..]);
      if AcceptedSentinels(o.attempts) == 1 {
        DriveIdle(o.sender, rounds[1..]);
      }
      SentinelCompose(o.attempts, r.1);
    }
  }

  /** A log that ends with its sentinel, if any, followed by one that does too, ends
      with its sentinel, provided nothing follows a sentinel. */
  lemma SentinelCompose(x: seq<Attempt>, y: seq<Attempt>)
    requires SentinelLast(x) && SentinelLast(y)
    requires AcceptedSentinels(x) == 1 ==> y == []
    ensures SentinelLast(x + y)
    ensures AcceptedSentinels(x + y) == AcceptedSentinels(x) + AcceptedSentinels(y)
  {
    if AcceptedSentinels(x) == 1 {
      assert x + y == x;
    } else {
      SentinelAfterChunks(x, y);
    }
  }

  lemma SentinelAfterChunks(x: seq<Attempt>, y: seq<Attempt>)
    requires AcceptedSentinels(x) == 0 && Delivered(x) == AcceptedChunks(x)
    requires SentinelLast(y)
    ensures SentinelLast(x + y)
    ensures AcceptedSentinels(x + y) == AcceptedSentinels(y)
  {
    AcceptedChunksAppend(x, y);
    AcceptedSentinelsAppend(x, y);
    DeliveredAppend(x, y);
    var last := if AcceptedSentinels(y) == 1 then [SentinelBytes] else [];
    Associative(AcceptedChunks(x), AcceptedChunks(y), last);
  }

  /** Chunks that, followed by the reference fragments from `to`, make up the reference
      fragments from `from` carry exactly the bytes between the two positions. */
  lemma FragmentPrefixBytes(data: Bytes, from: nat, to: nat, central: Option<Subscriber>, chunks: seq<Bytes>)
    requires from <= to <= |data|
    requires chunks + Fragment(data, to, central) == Fragment(data, from, central)
    ensures Flatten(chunks) == data[from..to]
  {
    FlattenAppend(chunks, Fragment(data, to, central));
    FragmentReassembles(data, to, central);
    FragmentReassembles(data, from, central);
    assert data[from..] == data[from..to] + data[to..];
    var f := Flatten(chunks);
    assert f + data[to..] == data[from..];
    assert f == (f + data[to..])[..|f|];
  }

  /** Flow control: every byte between the old and the new cursor was carried by an
      accepted chunk, in order, and by nothing else. */
  lemma CursorCountsAcceptedBytes(s: Sender, script: seq<bool>)
    requires s.sendDataIndex <= |s.dataToSend|
    ensures var o := SendData(s, script);
            Flatten(AcceptedChunks(o.attempts)) == s.dataToSend[s.sendDataIndex..o.sender.sendDataIndex]
  {
    var o := SendData(s, script);
    SendDataFlowControl(s, script);
    FragmentPrefixBytes(s.dataToSend, s.sendDataIndex, o.sender.sendDataIndex, s.connectedCentral, AcceptedChunks(o.attempts));
  }

  /** Over any run of readiness callbacks from the start of a payload, the accepted
      chunks concatenate to exactly the payload bytes before the cursor. */
  lemma DriveAcceptedBytes(s: Sender, rounds: seq<seq<bool>>)
    requires s.sendDataIndex == 0
    ensures var (t, attempts) := Drive(s, rounds);
            && t.sendDataIndex <= |s.dataToSend|
            && Flatten(AcceptedChunks(attempts)) == s.dataToSend[..t.sendDataIndex]
  {
    var (t, attempts) := Drive(s, rounds);
    DriveFragments(s, rounds);
    FragmentPrefixBytes(s.dataToSend, 0, t.sendDataIndex, s.connectedCentral, AcceptedChunks(attempts));
    assert s.dataToSend[0..t.sendDataIndex] == s.dataToSend[..t.sendDataIndex];
  }

  /** When every write is accepted, one call sends the whole remaining payload as the
      reference fragments and then the sentinel, and the transfer is complete. */
  lemma {:induction false} SendDataCompletes(s: Sender, script: seq<bool>)
    requires s.hasCharacteristic && !s.sendingEOM && s.sendDataIndex < |s.dataToSend|
    requires forall i :: 0 <= i < |script| ==> script[i]
    requires |script| > |Fragment(s.dataToSend, s.sendDataIndex, s.connectedCentral)|
    ensures var o := SendData(s, script);
            && o.sender.sendDataIndex == |s.dataToSend| && !o.sender.sendingEOM
            && Delivered(o.attempts) == Fragment(s.dataToSend, s.sendDataIndex, s.connectedCentral) + [SentinelBytes]
  {
    var o := SendLoop(s, script);
    assert SendData(s, script) == o;
    SendLoopAnswered(s, script);
    SendLoopFragments(s, script);
    SendLoopSentinel(s, script);
    var frags := Fragment(s.dataToSend, s.sendDataIndex, s.connectedCentral);
    var k := |o.attempts| - 1;
    ChunksBeforeLast(o.attempts);
    assert |AcceptedChunks(o.attempts)| <= |frags| by {
      assert |AcceptedChunks(o.attempts) + Fragment(s.dataToSend, o.sender.sendDataIndex, s.connectedCentral)| == |frags|;
    }
    assert o.attempts[k].accepted;
    assert Fragment(s.dataToSend, |s.dataToSend|, s.connectedCentral) == [];
  }

  /** Every attempt but the last of a callback is an accepted chunk. */
  lemma {:induction false} ChunksBeforeLast(attempts: seq<Attempt>)
    requires OnlyLastStops(attempts)
    ensures |AcceptedChunks(attempts)| >= |attempts| - 1
  {
    if |attempts| > 1 {
      assert OnlyLastStops(attempts[1..]) by {
        forall i | 0 <= i < |attempts[1..]| - 1
          ensures attempts[1..][i].accepted && attempts[1..][i].packet.Chunk?
        {
          assert attempts[1..][i] == attempts[i + 1];
        }
      }
      ChunksBeforeLast(attempts[1..]);
    }
  }

  // Callbacks of the peripheral manager.

  datatype PeripheralEvent =
    | StateUpdated(state: ManagerState)
    | Subscribed(central: Subscriber, payload: Bytes)
    | Unsubscribed
    | ReadyToUpdateSubscribers

  /** Only a powered-on manager sets up the service and its characteristic; every other
      state leaves the sender alone. */
  function OnStateUpdate(s: Sender, state: ManagerState): (t: Sender)
    ensures state == PoweredOn ==> t.hasCharacteristic
    ensures t.(hasCharacteristic := s.hasCharacteristic) == s
    ensures state != PoweredOn ==> t == s
  {
    match state
    case PoweredOn => s.(hasCharacteristic := true)
    case _ => s
  }

  /** A central subscribes: the fresh payload replaces the old one, the cursor goes back
      to zero, the central is recorded, and `sendData` runs. The sentinel flag is NOT
      cleared, so a sentinel left pending by an earlier transfer goes out first, alone,
      before any byte of the new payload. */
  function OnSubscribe(s: Sender, central: Subscriber, payload: Bytes, script: seq<bool>): (o: Outcome)
    ensures o.sender.dataToSend == payload && o.sender.connectedCentral == Some(central)
    ensures o.sender.hasCharacteristic == s.hasCharacteristic
    ensures o.sender.sendDataIndex <= |payload|
    ensures AcceptedChunks(o.attempts) + Fragment(payload, o.sender.sendDataIndex, Some(central))
            == Fragment(payload, 0, Some(central))
    ensures s.hasCharacteristic && s.sendingEOM ==>
              && o.attempts == [Attempt(Eom, Answer(script, 0))]
              && o.sender.sendDataIndex == 0
              && o.sender.sendingEOM == !Answer(script, 0)
    ensures !s.sendingEOM ==> Coherent(o.sender)
    ensures o == SendData(s.(dataToSend := payload, sendDataIndex := 0, connectedCentral := Some(central)), script)
  {
    var started := s.(dataToSend := payload, sendDataIndex := 0, connectedCentral := Some(central));
    SendDataFlowControl(started, script);
    SendDataSentinel(started, script);
    SendData(started, script)
  }

  /** A central unsubscribes: only the recorded central is forgotten. */
  function OnUnsubscribe(s: Sender): (t: Sender)
    ensures t.connectedCentral.None?
    ensures t.(connectedCentral := s.connectedCentral) == s
  {
    s.(connectedCentral := None)
  }

  /** With no central recorded there is no MTU to respect: the next accepted chunk is the
      whole remainder of the payload, and the sentinel follows in the same call. */
  lemma UnsubscribedSendsRemainder(s: Sender, script: seq<bool>)
    requires s.hasCharacteristic && !s.sendingEOM && s.sendDataIndex < |s.dataToSend|
    requires Answer(script, 0)
    ensures var o := SendData(OnUnsubscribe(s), script);
            && o.attempts[0] == Attempt(Chunk(s.dataToSend[s.sendDataIndex..]), true)
            && o.sender.sendDataIndex == |s.dataToSend|
            && o.attempts[|o.attempts| - 1].packet == Eom
  {
    var t := OnUnsubscribe(s);
    assert SendData(t, script) == SendLoop(t, script);
    assert ChunkSize(|t.dataToSend| - t.sendDataIndex, None) == |s.dataToSend| - s.sendDataIndex;
    assert s.dataToSend[s.sendDataIndex..s.sendDataIndex + (|s.dataToSend| - s.sendDataIndex)] == s.dataToSend[s.sendDataIndex..];
  }

  /** One callback. */
  function Step(s: Sender, e: PeripheralEvent, script: seq<bool>): (o: Outcome)
  {
    match e
    case StateUpdated(state) => Outcome(OnStateUpdate(s, state), [], script)
    case Subscribed(central, payload) => OnSubscribe(s, central, payload, script)
    case Unsubscribed => Outcome(OnUnsubscribe(s), [], script)
    case ReadyToUpdateSubscribers => SendData(s, script)
  }

  /** A sequence of callbacks, each with its own answer script. */
  function Run(s: Sender, events: seq<(PeripheralEvent, seq<bool>)>): (Sender, seq<Attempt>)
    decreases |events|
  {
    if |events| == 0 then (s, [])
    else
      var o := Step(s, events[0].0, events[0].1);
      var r := Run(o.sender, events[1..]);
      (r.0, o.attempts + r.1)
  }

  /** Whatever the callbacks, the cursor never passes the end of the payload. */
  lemma {:induction false} RunKeepsCursorInRange(s: Sender, events: seq<(PeripheralEvent, seq<bool>)>)
    requires s.sendDataIndex <= |s.dataToSend|
    ensures Run(s, events).0.sendDataIndex <= |Run(s, events).0.dataToSend|
    decreases |events|
  {
    if |events| > 0 {
      var o := Step(s, events[0].0, events[0].1);
      RunKeepsCursorInRange(o.sender, events[1..]);
    }
  }
}

=== FILE: roundtrip.dfy ===
/** The two roles composed: whatever reaches the central from a run of `sendData` calls,
    fed to a freshly connected central's value-update callback, in order. */
module RoundTrip {
  import opened Ble
  import P = PeripheralSide
  import C = CentralSide

  /** Every reference fragment decodes, and none of them decodes to the sentinel. */
  predicate FragmentsDecode(s: P.Sender, decode: Decoder)
    requires s.sendDataIndex <= |s.dataToSend|
  {
    forall f :: f in P.Fragment(s.dataToSend, s.sendDataIndex, s.connectedCentral) ==>
      decode(f).Some? && decode(f) != Some(Sentinel)
  }

  /** A prefix of the reference fragments decodes fragment by fragment. */
  lemma PrefixDecodes(s: P.Sender, chunks: seq<Bytes>, tail: seq<Bytes>, decode: Decoder)
    requires s.sendDataIndex <= |s.dataToSend|
    requires FragmentsDecode(s, decode)
    requires chunks + tail == P.Fragment(s.dataToSend, s.sendDataIndex, s.connectedCentral)
    ensures forall i :: 0 <= i < |chunks| ==> decode(chunks[i]).Some? && decode(chunks[i]) != Some(Sentinel)
  {
    forall i | 0 <= i < |chunks|
      ensures decode(chunks[i]).Some? && decode(chunks[i]) != Some(Sentinel)
    {
      assert chunks[i] == (chunks + tail)[i];
    }
  }

  /** What reaches the central from a run of sends from the start of a payload: the
      accepted chunks, all of them decodable, carrying the payload before the cursor,
      and then the sentinel exactly when one was accepted, which means the cursor is at
      the end. */
  lemma DriveDelivers(s: P.Sender, rounds: seq<seq<bool>>, decode: Decoder)
    requires s.sendDataIndex == 0 && !s.sendingEOM
    requires FragmentsDecode(s, decode)
    ensures var (t, attempts) := P.Drive(s, rounds);
            var chunks := P.AcceptedChunks(attempts);
            && Flatten(chunks) == s.dataToSend[..t.sendDataIndex]
            && (forall i :: 0 <= i < |chunks| ==> decode(chunks[i]).Some? && decode(chunks[i]) != Some(Sentinel))
            && P.Delivered(attempts) == chunks + (if P.AcceptedSentinels(attempts) == 1 then [SentinelBytes] else [])
            && (P.AcceptedSentinels(attempts) == 1 ==> t.sendDataIndex == |s.dataToSend|)
  {
    var (t, attempts) := P.Drive(s, rounds);
    P.DriveFragments(s, rounds);
    P.DriveSentinel(s, rounds);
    P.DriveAcceptedBytes(s, rounds);
    PrefixDecodes(s, P.AcceptedChunks(attempts), P.Fragment(s.dataToSend, t.sendDataIndex, s.connectedCentral), decode);
  }

  /** End to end: once the sentinel has been accepted, the central's last act is to hand
      exactly the payload to the view, and it hands nothing off before; until then, its
      buffer holds exactly the payload bytes before the sender's cursor and it does
      nothing at all. */
  lemma TransferDelivers(s: P.Sender, rounds: seq<seq<bool>>, c: C.Central, id: C.PeripheralId, p: C.Platform, decode: Decoder)
    requires s.sendDataIndex == 0 && !s.sendingEOM
    requires FragmentsDecode(s, decode)
    requires decode(SentinelBytes) == Some(Sentinel)
    ensures var (t, attempts) := P.Drive(s, rounds);
            var r := C.Run(C.OnConnect(c, id).central, C.Notifications(P.Delivered(attempts), p), decode);
            && t.sendDataIndex <= |s.dataToSend|
            && (P.AcceptedSentinels(attempts) == 1 ==>
                  && r.central.data == s.dataToSend
                  && |r.commands| >= 1
                  && r.commands[|r.commands| - 1] == C.HandOff(s.dataToSend)
                  && forall k :: 0 <= k < |r.commands| - 1 ==> !r.commands[k].HandOff?)
            && (P.AcceptedSentinels(attempts) == 0 ==>
                  && r.central.data == s.dataToSend[..t.sendDataIndex]
                  && r.commands == [])
  {
    var (t, attempts) := P.Drive(s, rounds);
    var start := C.OnConnect(c, id).central;
    var chunks := P.AcceptedChunks(attempts);
    DriveDelivers(s, rounds, decode);
    if P.AcceptedSentinels(attempts) == 1 {
      assert P.Delivered(attempts) == chunks + [SentinelBytes];
      C.ReceiveMessage(start, chunks, p, decode);
      assert start.data + Flatten(chunks) == s.dataToSend;
    } else {
      assert P.Delivered(attempts) == chunks;
      C.ReceiveFragments(start, chunks, p, decode);
      assert start.data + Flatten(chunks) == s.dataToSend[..t.sendDataIndex];
    }
  }

  /** A freshly connected central that receives the sentinel alone hands off an empty
      message, last. */
  lemma LoneSentinelHandsOffEmpty(c: C.Central, id: C.PeripheralId, p: C.Platform, decode: Decoder)
    requires decode(SentinelBytes) == Some(Sentinel)
    ensures var r := C.Run(C.OnConnect(c, id).central, C.Notifications([SentinelBytes], p), decode);
            |r.commands| >= 1 && r.commands[|r.commands| - 1] == C.HandOff([])
  {
    C.ReceiveMessage(C.OnConnect(c, id).central, [], p, decode);
    assert [] + [SentinelBytes] == [SentinelBytes];
  }

  /** A sentinel left pending by an earlier transfer survives a new subscription: with
      the transport ready, the new subscriber's first value is the sentinel alone, and a
      freshly connected central answers it by handing an empty message to the view. */
  lemma StaleSentinelFirst(s: P.Sender, central: P.Subscriber, payload: Bytes, script: seq<bool>,
                           c: C.Central, id: C.PeripheralId, p: C.Platform, decode: Decoder)
    requires s.hasCharacteristic && s.sendingEOM
    requires Answer(script, 0)
    requires decode(SentinelBytes) == Some(Sentinel)
    ensures var o := P.OnSubscribe(s, central, payload, script);
            && P.Delivered(o.attempts) == [SentinelBytes]
            && o.sender.sendDataIndex == 0
            && var r := C.Run(C.OnConnect(c, id).central, C.Notifications(P.Delivered(o.attempts), p), decode);
               r.commands[|r.commands| - 1] == C.HandOff([])
  {
    var o := P.OnSubscribe(s, central, payload, script);
    P.SingleAttempt(P.Attempt(P.Eom, true));
    assert P.Delivered(o.attempts) == [SentinelBytes];
    LoneSentinelHandsOffEmpty(c, id, p, decode);
  }

  /** An accepted stale sentinel clears the flag with the cursor at the start of the new
      payload. The readiness callback owed for the refusal that left the sentinel pending
      then sends, with the transport ready, the whole new payload and its own sentinel. */
  lemma AcceptedStaleSentinelThenPayload(s: P.Sender, central: P.Subscriber, payload: Bytes,
                                         script: seq<bool>, ready: seq<bool>)
    requires s.hasCharacteristic && s.sendingEOM && |payload| > 0
    requires Answer(script, 0)
    requires forall i :: 0 <= i < |ready| ==> ready[i]
    requires |ready| > |P.Fragment(payload, 0, Some(central))|
    ensures var t := P.OnSubscribe(s, central, payload, script).sender;
            var o := P.SendData(t, ready);
            && P.Coherent(t) && t.sendDataIndex == 0
            && P.Delivered(o.attempts) == P.Fragment(payload, 0, Some(central)) + [SentinelBytes]
            && o.sender.sendDataIndex == |payload| && !o.sender.sendingEOM
  {
    var t := P.OnSubscribe(s, central, payload, script).sender;
    assert t == s.(dataToSend := payload, sendDataIndex := 0, connectedCentral := Some(central), sendingEOM := false);
    P.SendDataCompletes(t, ready);
  }

  /** A refused stale sentinel leaves the new transfer incoherent: the flag is still set
      while the cursor is back at the start. Two readiness callbacks with the transport
      ready then deliver the stale sentinel, the whole new payload, and a second
      sentinel, so the bound of one accepted sentinel per transfer rests on `Coherent`. */
  lemma RefusedStaleSentinelRepeats(s: P.Sender, central: P.Subscriber, payload: Bytes,
                                    script: seq<bool>, second: seq<bool>)
    requires s.hasCharacteristic && s.sendingEOM && |payload| > 0
    requires !Answer(script, 0)
    requires forall i :: 0 <= i < |second| ==> second[i]
    requires |second| > |P.Fragment(payload, 0, Some(central))|
    ensures var t := P.OnSubscribe(s, central, payload, script).sender;
            var attempts := P.Drive(t, [[true], second]).1;
            && !P.Coherent(t)
            && P.Delivered(attempts) == [SentinelBytes] + P.Fragment(payload, 0, Some(central)) + [SentinelBytes]
            && P.AcceptedSentinels(attempts) == 2
  {
    var t := P.OnSubscribe(s, central, payload, script).sender;
    var first := P.SendData(t, [true]);
    assert first.sender == t.(sendingEOM := false) && first.attempts == [P.Attempt(P.Eom, true)];
    var o := P.SendData(first.sender, second);
    P.SendDataCompletes(first.sender, second);
    P.SendDataFlowControl(first.sender, second);
    P.SendDataSentinel(first.sender, second);
    var frags := P.Fragment(payload, 0, Some(central));
    assert P.Fragment(payload, |payload|, Some(central)) == [];
    assert P.AcceptedChunks(o.attempts) == frags;
    assert P.AcceptedSentinels(o.attempts) == 1 by {
      assert |P.Delivered(o.attempts)| == |frags| + 1;
    }
    var rest := [second];
    assert rest[1..] == [];
    assert P.Drive(first.sender, rest) == (o.sender, o.attempts + []);
    assert [[true], second][1..] == rest;
    assert P.Drive(t, [[true], second]).1 == first.attempts + (o.attempts + []);
    assert o.attempts + [] == o.attempts;
    P.AttemptsAppend(first.attempts, o.attempts);
    P.SingleAttempt(P.Attempt(P.Eom, true));
    assert P.Delivered(first.attempts) == [SentinelBytes];
    assert P.Delivered(o.attempts) == frags + [SentinelBytes];
    assert [SentinelBytes] + (frags + [SentinelBytes]) == [SentinelBytes] + frags + [SentinelBytes];
  }
}

=== FILE: scenarios.dfy ===
/** Concrete transfers: a ten-byte payload sent to a subscriber whose MTU is four. */
module Scenarios {
  import opened Ble
  import opened PeripheralSide

  const Payload: Bytes := [0x30, 0x31, 0x32, 0x33, 0x34, 0x35, 0x36, 0x37, 0x38, 0x39]

  function Start(): Sender
  {
    Sender(true, Payload, 0, false, Some(Subscriber(4)))
  }

  /** The reference fragmentation is four, four and two bytes. */
  lemma TenBytesFragments()
    ensures Fragment(Payload, 0, Some(Subscriber(4))) == [Payload[0..4], Payload[4..8], Payload[8..10]]
  {
    var c := Some(Subscriber(4));
    assert Fragment(Payload, 8, c) == [Payload[8..10]] + Fragment(Payload, 10, c);
    assert Fragment(Payload, 4, c) == [Payload[4..8]] + Fragment(Payload, 8, c);
    assert Fragment(Payload, 0, c) == [Payload[0..4]] + Fragment(Payload, 4, c);
  }

  /** With every write accepted, one call delivers the three fragments and the sentinel. */
  lemma TenBytesInOneCall()
    ensures var o := SendData(Start(), [true, true, true, true]);
            && Delivered(o.attempts) == [Payload[0..4], Payload[4..8], Payload[8..10], SentinelBytes]
            && o.sender.sendDataIndex == 10 && !o.sender.sendingEOM
  {
    TenBytesFragments();
    SendDataCompletes(Start(), [true, true, true, true]);
  }

  /** The transport refuses the second fragment: the call delivers the first fragment
      only, leaves the cursor after it, and the refused write is the second fragment. */
  lemma RefusedSecondFragment()
    ensures var first := SendData(Start(), [true, false]);
            && Delivered(first.attempts) == [Payload[0..4]]
            && first.sender == Start().(sendDataIndex := 4)
            && first.attempts[1] == Attempt(Chunk(Payload[4..8]), false)
  {
    var s := Start();
    var first := SendData(s, [true, false]);
    var inner := SendLoop(s.(sendDataIndex := 4), Skip([true, false], 1));
    assert inner == Outcome(s.(sendDataIndex := 4), [Attempt(Chunk(Payload[4..8]), false)], []);
    assert first.attempts == [Attempt(Chunk(Payload[0..4]), true), Attempt(Chunk(Payload[4..8]), false)];
    SingleAttempt(first.attempts[0]);
    SingleAttempt(first.attempts[1]);
    AttemptsAppend([first.attempts[0]], [first.attempts[1]]);
  }

  /** The transport refuses the second fragment: the first call delivers one fragment and
      leaves the cursor after it; the readiness callback resends the refused fragment and
      finishes the transfer. */
  lemma TenBytesWithRefusal()
    ensures var first := SendData(Start(), [true, false]);
            && Delivered(first.attempts) == [Payload[0..4]]
            && first.sender.sendDataIndex == 4
            && first.attempts[1] == Attempt(Chunk(Payload[4..8]), false)
            && var second := SendData(first.sender, [true, true, true]);
               && Delivered(second.attempts) == [Payload[4..8], Payload[8..10], SentinelBytes]
               && second.sender.sendDataIndex == 10 && !second.sender.sendingEOM
  {
    RefusedSecondFragment();
    var resumed := Start().(sendDataIndex := 4);
    TenBytesFragments();
    assert Fragment(Payload, 4, Some(Subscriber(4))) == [Payload[4..8], Payload[8..10]];
    SendDataCompletes(resumed, [true, true, true]);
  }
}

=== FILE: transfer_service.dfy ===
/** The fixed identifiers of the transfer service and its one characteristic. Peers
    that implement the same protocol must use exactly these values. */
module TransferService {

  const ServiceUuid: string := "E20A39F4-73F5-4BC4-A12F-17D1AD07A961"
  const CharacteristicUuid: string := "08590F7E-DB05-467E-8757-72F6FAEB13D4"
}
